=== FILE: README.md ===
# Property Law AI backend core, modelled in Dafny

The backend of Property Law AI takes a free-text property dispute from a Bangalore user. It asks
a language model for a structured legal analysis, normalises whatever text the model returns into
a fixed-shape record, and stores that record. It can then list the user's cases, update them, and
render a case as a PDF report.

This project models the pure logic of that backend:

- **`AiService`** (`ai_service.py`):
  - the system prompt, the user prompt and the full-prompt assembly;
  - the response normaliser `_parse_ai_response`: fence stripping, the bare-fence check, decoding,
    and the field-by-field repair with `setdefault` and the score coercion;
  - the constant fallback record;
  - one `analyze_case` round trip.
- **`Models`** (`models.py`):
  - the closed `DisputeType` and `CaseStatus` enumerations;
  - the field bounds and case-text validators of `CaseCreate`, `CaseUpdate` and
    `CaseAnalysisRequest`;
  - the `AIResponse` schema, as a strict reader from JSON values together with a per-field
    conformance predicate.
- **`Report`** (`pdf_generator.py`):
  - the dispute-type labels;
  - the confidence bands and their explanations;
  - which sections, lines and table rows the PDF report emits.

  Each report section is a sequence of `Element`s, with reportlab's layout abstracted away.
- **`Database`** (`database.py`):
  - the stamping `create_case` does before its insert;
  - the statistics loop of `get_user_stats`.
- **`Cases`** (`cases.py`):
  - the record `analyze_case` stores and the reply it builds;
  - the `update_data` diff of `update_case` and its re-analysis trigger;
  - the listing filter;
  - the upload checks.
- **Shared modules:**
  - `Text`: Python's `str.strip` over the `isspace` set, `split()`, and decimal numerals.
  - `JsonValues`: the decoded JSON datatype, Python truthiness, and `isinstance(x, (int, float))`.
  - `Wrappers`: `Option` and `Result`.

The project deliberately leaves several things as parameters or inputs:

- **Decoder.** Decoding with `json.loads` is a parameter `decode: string -> Option<Json>`, so every
  property of the normaliser holds for every decoder.
- **Model call.** The call to the model is a parameter `ask: string -> Option<string>`.
- **Analysis in the routes.** The routes in `Cases` take `analyze_case_with_ai` as a parameter
  `analyze`. They require only that every record it yields has the shape the normaliser
  guarantees. `Cases.AiAnalyser` is the service's own analyser and meets that requirement.
- **Rendering.** Python's `str()` of a non-string value formatted into a numbered line or a table
  cell is a parameter `render`, and `str.title()` is a parameter `titleCase`. The summary, timeline
  and costs values are handed to a paragraph as they are. A truthy non-string value there raises,
  so the section, and with it the report, fails. A paragraph also parses its text as markup. That
  parser is not modelled: every string is taken to be well-formed markup.
- **Database values.** Rows a query returned, fresh ids and timestamps are inputs.

Where the code and its written description differ, the model follows the code:

- **No category context sentence.** The user prompt carries the case text and the literal
  dispute-type value and nothing else.
- **Present fields are kept as they are.** `legal_issues`, `applicable_laws`, `missing_evidence`,
  `strategies`, `next_steps`, `estimated_timeline` and `estimated_costs` are filled only when the
  key is absent. A present but empty or wrongly typed value survives repair:
  `AiService.WrongTypeSurvivesRepair` and `AiService.EmptyListSurvivesRepair` show this, and
  `AiService.RepairConformsIff` states exactly when a repaired record satisfies the `AIResponse`
  schema.
- **Precedents are never defaulted.** An absent `precedents` key stays absent.
- **The schema is checked after the case is stored.** In `analyze_case` the reply is validated
  against the schema only after the record has been stored. An analysis whose kept fields do not
  conform is therefore stored and then answered with 500 (`Cases.AnalyzeCaseRoute`).

## Model

| member | source | states |
|---|---|---|
| `Models.ParseDisputeType` | property_law_ai_clean/backend/models.py:7-13 | a dispute type parses exactly from the six values inheritance, boundary, mutation, tax, bbmp_bda, other, and parses back to the value it came from |
| `Models.DisputeTypeRoundTrip` | property_law_ai_clean/backend/models.py:7-13 | every dispute type's value parses back to that type |
| `Models.ParseCaseStatus` | property_law_ai_clean/backend/models.py:15-18 | a case status parses exactly from active, archived, deleted |
| `Models.CaseStatusRoundTrip` | property_law_ai_clean/backend/models.py:15-18 | every status's value parses back to that status |
| `Models.ValidateCaseText` | property_law_ai_clean/backend/models.py:58-62 | the case-text validator accepts iff the stripped text has at least 50 characters, and then returns exactly the stripped text |
| `Models.ValidateCaseTextIdempotent` | property_law_ai_clean/backend/models.py:58-62 | re-validating an accepted case text returns it unchanged |
| `Models.TrimmedTextValidates` | property_law_ai_clean/backend/models.py:58-62 | any trimmed text of at least 50 characters is accepted as it is |
| `Models.ValidateAnalysisText` | property_law_ai_clean/backend/models.py:175-181 | the analysis-request validator accepts iff the stripped text has at least 20 whitespace-separated words, and then returns exactly the stripped text |
| `Models.ValidateAnalysisTextIdempotent` | property_law_ai_clean/backend/models.py:175-181 | re-validating an accepted analysis text returns it unchanged |
| `Models.ValidateAnalysisRequest` | property_law_ai_clean/backend/models.py:170-181 | an analysis request is accepted iff the raw text has 50..10000 characters, the stripped text has at least 20 words, and the dispute type is one of the six; the result holds the stripped text and the parsed type |
| `Models.AnalysisRequestRevalidates` | property_law_ai_clean/backend/models.py:170-181 | an accepted request whose stripped text still has at least 50 characters validates again to itself |
| `Models.ValidateCaseCreate` | property_law_ai_clean/backend/models.py:53-65 | a create body is accepted iff the title has 5..500 characters, the raw text has 50..10000, the stripped text has at least 50, and the dispute type is one of the six; the result holds the stripped text, still within 50..10000 |
| `Models.CaseCreateRevalidates` | property_law_ai_clean/backend/models.py:53-65 | validating an accepted create body again gives the same body |
| `Models.StrippedTextRevalidates` | property_law_ai_clean/backend/models.py:55-62 | the stripped form of an accepted text is within bounds and validates to itself |
| `Models.ValidateCaseUpdate` | property_law_ai_clean/backend/models.py:67-71 | an update body is accepted iff every given field meets its bounds or enumeration; absent fields stay absent and given ones keep their values |
| `Models.AsStringList` | property_law_ai_clean/backend/models.py:93 | a `List[str]` field reads iff it is an array of strings, element by element |
| `Models.AsScore` | property_law_ai_clean/backend/models.py:97 | the schema's score reads iff it is an integral number in [1, 10] |
| `Models.AsLaws` | property_law_ai_clean/backend/models.py:79-81 | an applicable-laws list reads iff every entry is an object with string law and relevance |
| `Models.AsPrecedents` | property_law_ai_clean/backend/models.py:87-89 | a precedents list reads iff every entry is an object with string case and relevance |
| `Models.Nullable` | property_law_ai_clean/backend/models.py:83-85 | an optional field reads when absent (as its default), null, or well typed |
| `Models.ToAIResponse` | property_law_ai_clean/backend/models.py:91-101 | a record that reads as an `AIResponse` has a numeric score equal to the record's score |
| `Models.ToAIResponseSound` | property_law_ai_clean/backend/models.py:91-101 | a record that reads as an `AIResponse` has every required key and every field conforming |
| `Models.ToAIResponseComplete` | property_law_ai_clean/backend/models.py:91-101 | a record with every required key and every field conforming reads as an `AIResponse` |
| `Models.ToAIResponseIff` | property_law_ai_clean/backend/models.py:91-101 | reading as an `AIResponse` is equivalent to per-field conformance |
| `AiService.UserPrompt` | property_law_ai_clean/backend/ai_service.py:59-68 | the user prompt starts and ends with its fixed frame and its length is the frame plus the case text plus the dispute value |
| `AiService.UserPromptRoundTrip` | property_law_ai_clean/backend/ai_service.py:59-68 | the case text can be read back out of the user prompt verbatim |
| `AiService.UserPromptInjective` | property_law_ai_clean/backend/ai_service.py:59-68 | distinct (case text, dispute type) pairs give distinct user prompts |
| `AiService.FullPrompt` | property_law_ai_clean/backend/ai_service.py:82 | the full prompt starts with the system prompt and a blank line and ends with a blank line and the JSON-only instruction |
| `AiService.FullPromptCarriesUserPrompt` | property_law_ai_clean/backend/ai_service.py:82 | between that prefix and that suffix the full prompt is exactly the user prompt |
| `AiService.FullPromptInjective` | property_law_ai_clean/backend/ai_service.py:24-68 | distinct (case text, dispute type) pairs give distinct full prompts |
| `AiService.DisputeValueSuffixFree` | property_law_ai_clean/backend/models.py:7-13 | no dispute value ends with another one, so the value at the end of a prompt is unambiguous |
| `AiService.StripFences` | property_law_ai_clean/backend/ai_service.py:130-137 | cleaning yields a trimmed text no longer than the answer |
| `AiService.FencedPayloadCleans` | property_law_ai_clean/backend/ai_service.py:130-137 | a payload wrapped in a json-tagged fence cleans to the stripped payload |
| `AiService.StripFencesOfUnfenced` | property_law_ai_clean/backend/ai_service.py:130-137 | an answer whose trimmed form has no fence at either end cleans to its trimmed form |
| `AiService.StripFencesOfPlainFence` | property_law_ai_clean/backend/ai_service.py:133-136 | a payload in plain fences loses exactly the two fences |
| `AiService.UppercaseTagCleaning` | property_law_ai_clean/backend/ai_service.py:131-134 | an upper-case "JSON" tag is not recognised: only the three backticks go and the cleaned text starts with 'J' |
| `AiService.UppercaseTagFallsBack` | property_law_ai_clean/backend/ai_service.py:131-145 | with a decoder that rejects texts starting with 'J', an upper-case-tagged answer gives the fallback record |
| `AiService.DefaultKeySets` | property_law_ai_clean/backend/ai_service.py:156-168 | the keys filled before the score are legal_issues, applicable_laws, missing_evidence, strategies; after it next_steps, estimated_timeline, estimated_costs; precedents is never filled |
| `AiService.SetDefaults` | property_law_ai_clean/backend/ai_service.py:156-159 | a run of `setdefault` calls adds exactly the missing keys |
| `AiService.SetDefaultsKeeps` | property_law_ai_clean/backend/ai_service.py:156-159 | `setdefault` never changes a present key |
| `AiService.SetDefaultsFills` | property_law_ai_clean/backend/ai_service.py:156-159 | an absent key receives the first default listed for it |
| `AiService.CoerceScore` | property_law_ai_clean/backend/ai_service.py:161-165 | the coerced score is an integer in [1, 10]; a number (a bool counts) in [1, 10] becomes its integer part; anything else becomes 6 |
| `AiService.CoerceScoreKeepsScores` | property_law_ai_clean/backend/ai_service.py:161-165 | an integral score in [1, 10] is left as it is |
| `AiService.CoerceScoreExamples` | property_law_ai_clean/backend/ai_service.py:161-165 | 7.9 becomes 7, 10 stays, 15, 0.5, "7", false and null become 6, true becomes 1 |
| `AiService.RepairKeys` | property_law_ai_clean/backend/ai_service.py:148-168 | repair adds exactly the summary, score and defaulted keys to the decoded keys |
| `AiService.RepairKeepsObjectSummary` | property_law_ai_clean/backend/ai_service.py:148-153 | an object summary is kept unchanged, anything else is replaced wholesale by the default summary |
| `AiService.RepairCoercesScore` | property_law_ai_clean/backend/ai_service.py:161-165 | the repaired score is the coercion of the decoded score (6 when absent) |
| `AiService.RepairFillsOnlyAbsentKeys` | property_law_ai_clean/backend/ai_service.py:156-159 | a defaulted key keeps its decoded value when present and gets its fixed default only when absent |
| `AiService.RepairPassesOtherKeys` | property_law_ai_clean/backend/ai_service.py:145-170 | every other decoded key, precedents included, passes through untouched |
| `AiService.RepairEstablishesShape` | property_law_ai_clean/backend/ai_service.py:148-168 | every repaired record has all guaranteed keys, an object summary and a valid score |
| `AiService.RepairFixedPoints` | property_law_ai_clean/backend/ai_service.py:148-168 | repair leaves a record unchanged iff the record already has the repaired shape |
| `AiService.RepairIdempotent` | property_law_ai_clean/backend/ai_service.py:148-168 | repairing twice is repairing once |
| `AiService.FallbackHasRepairedShape` | property_law_ai_clean/backend/ai_service.py:209-265 | the fallback record has the repaired shape and score 3 |
| `AiService.FallbackIsRepaired` | property_law_ai_clean/backend/ai_service.py:209-265 | repair leaves the fallback record unchanged |
| `AiService.FallbackCounts` | property_law_ai_clean/backend/ai_service.py:217-262 | the fallback has 3 legal issues, 2 laws, 4 missing-evidence items, 4 next steps and 1 precedent |
| `AiService.FallbackStrategyCounts` | property_law_ai_clean/backend/ai_service.py:238-249 | the fallback has 3 plaintiff and 3 defendant strategies |
| `AiService.FallbackConforms` | property_law_ai_clean/backend/ai_service.py:209-265 | the fallback record satisfies the `AIResponse` schema |
| `AiService.ParseAiResponse` | property_law_ai_clean/backend/ai_service.py:126-179 | the normaliser never fails, its result always has the repaired shape, and a bare or empty cleaned answer gives the fallback record |
| `AiService.Normalise` | property_law_ai_clean/backend/ai_service.py:139-170 | whatever record stands in for a failure, the result has the repaired shape whenever that record does, and a bare or empty cleaned text gives that record |
| `AiService.ParseAiResponseOutcomes` | property_law_ai_clean/backend/ai_service.py:140-179 | the result is the repair of the decoded object when there is one, and the fallback record otherwise |
| `AiService.NormaliseOutcomes` | property_law_ai_clean/backend/ai_service.py:139-179 | for any cleaned text and any stand-in record, the result is the repair of the decoded object when there is one and the stand-in otherwise |
| `AiService.UndecodableFallsBack` | property_law_ai_clean/backend/ai_service.py:145-179 | an answer that fails to decode, or decodes to a non-object, gives the fallback record |
| `AiService.FencedParsesLikeBare` | property_law_ai_clean/backend/ai_service.py:130-145 | wrapping an unfenced payload in a json-tagged fence does not change the result, for every decoder |
| `AiService.FencedObjectRepaired` | property_law_ai_clean/backend/ai_service.py:130-170 | a fenced payload that decodes to an object gives the repair of that object |
| `AiService.ScoreOnlyRepair` | property_law_ai_clean/backend/ai_service.py:148-168 | an object holding only score 9 repairs to score 9, the default summary and every default field |
| `AiService.ScoreOnlyAnswer` | property_law_ai_clean/backend/ai_service.py:126-170 | a fenced answer decoding to only score 9 normalises to score 9, the default summary and every default field |
| `AiService.AnalyzeCase` | property_law_ai_clean/backend/ai_service.py:76-96 | one analysis fails exactly when the model call fails or answers with empty text, and otherwise yields a record of the repaired shape |
| `AiService.AnswerRecord` | property_law_ai_clean/backend/ai_service.py:85-96 | a model answer yields no record exactly when the call failed or the text is empty; any other answer becomes a record of the repaired shape |
| `AiService.RepairDefaultsConform` | property_law_ai_clean/backend/ai_service.py:156-168 | every default value repair may insert satisfies the schema for its field |
| `AiService.RepairKeptOrConforming` | property_law_ai_clean/backend/ai_service.py:148-168 | each repaired field is either the decoded value kept as it was or a schema-conforming replacement |
| `AiService.RepairFieldConforms` | property_law_ai_clean/backend/ai_service.py:148-168 | a repaired field conforms iff the decoded value it keeps (if any) conforms |
| `AiService.RepairConformsIff` | property_law_ai_clean/backend/ai_service.py:148-168 | a repaired record satisfies the schema iff every decoded field that repair keeps already does |
| `AiService.WrongTypeSurvivesRepair` | property_law_ai_clean/backend/ai_service.py:156 | a string where the list of legal issues belongs is kept as it is, and the repaired record then fails the schema |
| `AiService.EmptyListSurvivesRepair` | property_law_ai_clean/backend/ai_service.py:166 | an empty next-steps list is kept as it is |
| `Report.FormatDisputeType` | property_law_ai_clean/backend/pdf_generator.py:364-374 | a known key shows its fixed label, any other key its title-cased form |
| `Report.LabelInjective` | property_law_ai_clean/backend/pdf_generator.py:366-373 | distinct dispute types have distinct labels |
| `Report.ConfidenceColor` | property_law_ai_clean/backend/pdf_generator.py:376-383 | green iff the score is at least 7, orange iff it is in [4, 7), red iff it is below 4 |
| `Report.ConfidenceExplanation` | property_law_ai_clean/backend/pdf_generator.py:385-392 | the high explanation iff the score is at least 7, the medium one iff it is in [4, 7), the low one iff it is below 4 |
| `Report.ColorAndExplanationAgree` | property_law_ai_clean/backend/pdf_generator.py:376-392 | the explanation is the one for the score's colour, so two scores share an explanation iff they share a colour |
| `Report.IntegerScoreBands` | property_law_ai_clean/backend/pdf_generator.py:376-383 | on integer scores 1..10: 1-3 red, 4-6 orange, 7-10 green |
| `Report.ConfidenceSection` | property_law_ai_clean/backend/pdf_generator.py:129-151 | the confidence section exists iff the score (5 when absent) is numeric, and is then a heading, the score shown in the colour of its band, and the explanation of its band |
| `Report.RepairedConfidenceSection` | property_law_ai_clean/backend/pdf_generator.py:129-151 | every normalised analysis has a confidence section whose explanation belongs to the score line's colour: green iff the score is at least 7, red iff it is at most 3 |
| `Report.MissingScoreIsMedium` | property_law_ai_clean/backend/pdf_generator.py:133 | a record without a score is shown as 5 in orange with the medium explanation |
| `Report.LabelledBlock` | property_law_ai_clean/backend/pdf_generator.py:164-184 | a falsy value emits nothing, a string emits its caption and the text, and a truthy non-string value fails as the paragraph it is handed to raises |
| `Report.Iterate` | property_law_ai_clean/backend/pdf_generator.py:201 | iterating a list gives its items and iterating a string gives its characters; other values cannot be iterated |
| `Report.Numbered` | property_law_ai_clean/backend/pdf_generator.py:201-204 | item i is rendered as "i+1. item", one line per item in order |
| `Report.NumberedTextReadsBack` | property_law_ai_clean/backend/pdf_generator.py:202 | the number and the item can be read back from a numbered line |
| `Report.NumberedBlock` | property_law_ai_clean/backend/pdf_generator.py:262-283 | a falsy list emits nothing; a truthy one emits its lead line and one line per item |
| `Report.SummarySection` | property_law_ai_clean/backend/pdf_generator.py:153-187 | the summary section can be built iff the summary (empty when absent) is an object whose facts, claims and dispute nature are each falsy or a string; it opens with its heading |
| `Report.SummarySectionSize` | property_law_ai_clean/backend/pdf_generator.py:160-184 | the summary section has a heading plus two lines per truthy field among facts, claims and dispute nature |
| `Report.ListSection` | property_law_ai_clean/backend/pdf_generator.py:189-208 | a falsy list emits nothing; the section can be built iff the list is falsy or iterable, and a non-empty one opens with its heading |
| `Report.ListSectionItems` | property_law_ai_clean/backend/pdf_generator.py:189-208 | a list section is its heading followed by the numbered items in order |
| `Report.LawRow` | property_law_ai_clean/backend/pdf_generator.py:223-227 | a law row has two cells: the law and its relevance as stored, each "N/A" when missing |
| `Report.LawRows` | property_law_ai_clean/backend/pdf_generator.py:223-227 | one row per law, in order, when every law is an object |
| `Report.LawsSection` | property_law_ai_clean/backend/pdf_generator.py:210-248 | a falsy laws list emits nothing |
| `Report.LawsTableRows` | property_law_ai_clean/backend/pdf_generator.py:216-229 | a non-empty list of law objects gives a heading and a table of the header row followed by each law's row, in order |
| `Report.StrategiesSection` | property_law_ai_clean/backend/pdf_generator.py:250-287 | falsy strategies emit nothing; truthy strategies that are not an object fail; otherwise the section opens with its heading |
| `Report.StrategiesSectionItems` | property_law_ai_clean/backend/pdf_generator.py:250-287 | for plaintiff and defendant lists, the section is its heading, then for each non-empty side its lead line and its items numbered from 1, plaintiff first |
| `Report.TimelineCostsSection` | property_law_ai_clean/backend/pdf_generator.py:310-337 | the section can be built iff the timeline and the costs are each falsy or a string; it is non-empty iff either is truthy, and then opens with its heading |
| `Report.Header` | property_law_ai_clean/backend/pdf_generator.py:86-127 | the header is the title "Property Law AI Assistant", the subtitle "Legal Case Analysis Report" and a five-row table: the case title ("N/A" when absent), the formatted stored dispute type ("other" when absent), the date, the user's name and the case id ("N/A" when absent); it fails when the stored dispute type is not a string |
| `Report.CaseReport` | property_law_ai_clean/backend/pdf_generator.py:394-449 | a built report holds at least the header and the confidence section |
| `Report.ConformingAnalysisRenders` | property_law_ai_clean/backend/pdf_generator.py:421-443 | every record that satisfies the `AIResponse` schema renders all its sections |
| `Report.ConformingStrategiesRender` | property_law_ai_clean/backend/pdf_generator.py:250-287 | schema-conforming strategies always render |
| `Report.ConformingLawsRender` | property_law_ai_clean/backend/pdf_generator.py:210-248 | a schema-conforming laws list always renders |
| `Report.FallbackRecordRenders` | property_law_ai_clean/backend/pdf_generator.py:394-449 | a case holding the fallback record always yields a report |
| `Report.NonStringFactsFail` | property_law_ai_clean/backend/pdf_generator.py:164-168 | a case whose summary facts are a truthy non-string value yields no report |
| `Database.CreateCase` | property_law_ai_clean/backend/database.py:111-117 | the id and both timestamps are always overwritten, status defaults to "active" only when absent, and every other field is unchanged |
| `Database.CreateCaseRestamps` | property_law_ai_clean/backend/database.py:114-117 | stamping twice is stamping once with the later values |
| `Database.GetUserStats` | property_law_ai_clean/backend/database.py:239-277 | the total is the row count; the per-type counts are exactly each type's row count (missing type counted as "other") and sum to the total; the average is the mean of the truthy scores (0 when none); a failed query gives all zeros |
| `Database.HistogramStep` | property_law_ai_clean/backend/database.py:256-258 | counting one more row keeps the per-type histogram exact |
| `Database.MeanWithinScoreRange` | property_law_ai_clean/backend/database.py:263 | when every stored score meets the table's CHECK (1..10), a non-empty average lies in [1, 10] |
| `Cases.CaseRecord` | property_law_ai_clean/backend/cases.py:38-46 | a new case record has exactly the seven keys, the user id, title and case text as given, status "active", the dispute type's value, and the analysis score (5 when absent) |
| `Cases.StoredRecord` | property_law_ai_clean/backend/cases.py:38-49 | the stored record carries the given id, status "active" and the analysis' score, which is an integer in [1, 10] |
| `Cases.RecordScoreFromAnalysis` | property_law_ai_clean/backend/cases.py:44 | for a normalised analysis the default of 5 is never used and the stored score is an integer in [1, 10] |
| `Cases.StoredRecordKeepsFields` | property_law_ai_clean/backend/cases.py:38-49 | storing the record adds the three stamps and keeps every field, status still "active" |
| `Cases.AiAnalyser` | property_law_ai_clean/backend/ai_service.py:275-277 | the analyser the routes call yields only records of the repaired shape, and fails exactly when the model call fails or answers with empty text |
| `Cases.AnalyzeCaseRoute` | property_law_ai_clean/backend/cases.py:21-71 | a failed analysis stores nothing and replies 500; otherwise an active case with the analysis' valid score is stored, and the reply succeeds iff the analysis satisfies the schema |
| `Cases.UpdateData` | property_law_ai_clean/backend/cases.py:167-175 | the diff holds exactly the given fields among title, case_text, dispute_type and status |
| `Cases.UpdateDataRoundTrip` | property_law_ai_clean/backend/cases.py:167-175 | reading the diff back gives the update it was built from |
| `Cases.ReanalysisInputs` | property_law_ai_clean/backend/cases.py:180-189 | a missing case is 404; the re-analysis uses the updated text and type when given and the stored ones otherwise; a stored case lacking them, or with an unknown type, is 500 |
| `Cases.Reanalysis` | property_law_ai_clean/backend/cases.py:180-192 | no analysis runs when the inputs cannot be found; otherwise the analysis is the one of the found text and type, and any record it yields has the repaired shape |
| `Cases.StoredDisputeType` | property_law_ai_clean/backend/cases.py:189 | a stored dispute type converts iff it is one of the six values |
| `Cases.PlanUpdate` | property_law_ai_clean/backend/cases.py:167-194 | without a new text or type the diff is just the given fields and the stored case is not read; otherwise the diff is produced iff the re-analysis yields a record, it then holds that record and its valid score with the requested fields kept, and failures are 404 or 500 |
| `Cases.Reanalysed` | property_law_ai_clean/backend/cases.py:180-194 | the extended diff exists iff the inputs were found and analysed; a lookup failure keeps its status, a failed analysis is 500, and the given fields are kept beside the record and its valid score |
| `Cases.ReanalysisPrefersUpdate` | property_law_ai_clean/backend/cases.py:188-192 | with both text and type given, the re-analysis runs on them whatever is stored |
| `Cases.WithAnalysis` | property_law_ai_clean/backend/cases.py:191-194 | adding an analysis to the diff keeps every given field and adds the record and its score, an integer in [1, 10] |
| `Cases.FilterByType` | property_law_ai_clean/backend/cases.py:89-90 | without a requested type the list is unchanged; with one, every kept case has that type |
| `Cases.KeepMembers` | property_law_ai_clean/backend/cases.py:90 | a case is kept iff it is listed and has the requested type |
| `Cases.KeepAppend` | property_law_ai_clean/backend/cases.py:90 | filtering distributes over concatenation, so listed order is preserved |
| `Cases.FilterIdempotent` | property_law_ai_clean/backend/cases.py:89-90 | filtering twice by the same type is filtering once |
| `Cases.ValidateUpload` | property_law_ai_clean/backend/cases.py:316-353 | an upload is accepted iff the case exists, the size is known and at most 10 MiB, and the type is one of the five; otherwise 404, then 500 for an unknown size, then 413, then 400 |
| `Cases.SizeCheckedBeforeType` | property_law_ai_clean/backend/cases.py:324-342 | an oversized file is rejected the same way whatever its content type |
| `Cases.LimitIsInclusive` | property_law_ai_clean/backend/cases.py:324 | exactly 10 MiB is accepted and one byte more gives 413 |
| `Text.Strip` | property_law_ai_clean/backend/models.py:60-62 | stripping yields a trimmed text no longer than the input |
| `Text.StripIdempotent` | property_law_ai_clean/backend/models.py:60-62 | stripping twice is stripping once |
| `Text.LStrip` | property_law_ai_clean/backend/models.py:60-62 | left-stripping removes exactly a leading run of whitespace, leaving a text that is empty or starts with a non-space |
| `Text.RStrip` | property_law_ai_clean/backend/models.py:60-62 | right-stripping removes exactly a trailing run of whitespace, leaving a text that is empty or ends with a non-space |
| `Text.Words` | property_law_ai_clean/backend/models.py:178 | every word of `split()` is non-empty and holds no whitespace |
| `Text.WordsCoverText` | property_law_ai_clean/backend/models.py:178 | the words of a text are exactly its non-space characters, in order |
| `JsonValues.NumericValue` | property_law_ai_clean/backend/ai_service.py:162 | a value is numeric iff it is a number or a bool, with true as 1 and false as 0 |

## Left out

- The model client is out of scope: `genai.configure`, `_make_gemini_request`, the executor and the
  event loop are network calls into a foreign library. The model's answer is the parameter `ask`.
- The internals of `json.loads` are out of scope because it is a library parser. It is the
  parameter `decode`.
- Supabase queries, the SQL schema, uuid and timestamp generation are I/O. Query results, ids and
  timestamps are inputs. A `data` of `None` in `get_user_stats` is the same input as an empty row
  list.
- reportlab styling, tables, spacers, page breaks, the footer and PDF bytes are layout, not
  content, and are left out. So are the `datetime.now()` stamps in the header and footer; the
  analysis date is an input.
- `auth.py`, `main.py` (routing, CORS, startup) and `frontend/serve.py` are wiring, as is the
  FastAPI dependency injection. So is logging.
- `_get_default_value` (ai_service.py:181-207) is not called by any modelled code, and its defaults
  differ from those the normaliser uses.
- The unused `original_response` argument of `_create_fallback_response` is dropped. The fallback
  record is a constant.
- `get_case_details`, `delete_case`, `download_case_pdf` and `get_user_stats` in `cases.py` only
  forward to the database or the report. Conversion of rows into `CaseListItem` is left out for the
  same reason.
- Database.GetUserStats: `round(average, 2)` is not modelled; the average is the exact rational
  mean, because the rounding is floating point.
- Database.GetUserStats: a row whose dispute type is present but null would be counted under the
  key `None`. Rows carry a string or no dispute type because the column is NOT NULL.
- JsonValues.NumericValue: NaN and infinities, and the int/float distinction of decoded numbers,
  are not modelled. Numbers are reals.
- Models.ToAIResponse: the schema is read strictly. pydantic's lax coercions, such as "7" to 7,
  are not modelled.
- Report.Iterate: iterating a dict, which yields its keys in insertion order, is modelled as a
  failure, because maps carry no key order.
- Report.LabelledBlock: reportlab's markup parsing of paragraph text is not modelled, because the
  parser is a foreign library. Every string is taken to be well-formed markup, so a value with,
  say, an unclosed `<b>` still emits its block, where the source's paragraph would raise.
- Report.ConformingAnalysisRenders: holds only under the same assumption. A schema-conforming
  record whose summary, list items, strategies, timeline or costs hold malformed markup makes the
  source raise.
- Report.ConformingStrategiesRender: holds only under the same assumption, because each numbered
  strategy line is a paragraph.
- Report.CaseReport: its own contract gives only the minimum number of elements. The
  section-by-section content is stated on the section functions and on
  `Report.ConformingAnalysisRenders`.
- Cases.AnalyzeCaseRoute: the reply's `created_at`/`updated_at` conversion to datetimes is
  assumed to succeed. The insert is assumed to return the record as written.
- Cases.PlanUpdate: the model stops at the diff handed to `db.update_case`. The update's own
  "not found" reply and the response built from the updated row depend on what the database
  returns.

=== FILE: ai_service.dfy ===
/**
  The AI-response normaliser and the prompt it is asked with.

  `ParseAiResponse` turns whatever text the language model sent back into a Python dict: it
  strips Markdown code fences, hands the rest to a JSON decoder, and either repairs the decoded
  object field by field or substitutes the constant low-confidence fallback record. The decoder
  (`json.loads`) is a parameter, so every property here holds for every decoder.
 */
module AiService {
  import opened Wrappers
  import opened Text
  import opened JsonValues
  import Models

  // ---------------------------------------------------------------------------------------
  // Prompt composition
  // ---------------------------------------------------------------------------------------

  /** The fixed domain prompt: the JSON structure the model must answer in and the scoring guide. */
  const SystemPrompt: string := @"
You are a legal AI assistant for Karnataka property law. Analyze the case and respond ONLY in valid JSON format.

Required JSON structure:
{
    ""case_summary"": {
        ""facts"": ""Brief factual summary"",
        ""claims"": ""What parties claim"",
        ""dispute_nature"": ""Type of dispute""
    },
    ""legal_issues"": [""Key legal questions""],
    ""applicable_laws"": [
        {""law"": ""Law name"", ""relevance"": ""How it applies""}
    ],
    ""missing_evidence"": [""Required documents""],
    ""strategies"": {
        ""plaintiff"": [""Plaintiff strategies""],
        ""defendant"": [""Defendant strategies""]
    },
    ""confidence_score"": 7,
    ""next_steps"": [""Recommended actions""],
    ""estimated_timeline"": ""Duration estimate"",
    ""estimated_costs"": ""Cost estimate""
}

Confidence Score Guidelines:
- 8-10: Clear facts, straightforward law, minimal missing evidence
- 6-7: Good facts, established law, some missing documents
- 4-5: Adequate facts, complex issues, significant missing evidence
- 1-3: Unclear facts, very complex legal issues, major gaps

For inheritance cases with clear family structure and established law, score should be 6-8.
Analyze each case individually based on the specific facts provided.
"

  const UserPromptHead: string := "\nAnalyze this property law case for Bangalore, Karnataka:\n\nCase Details: "
  const UserPromptMid: string := "\nDispute Type: "
  const UserPromptTail: string :=
    "\n\nProvide analysis in the exact JSON format specified. Focus on the specific facts of this case.\n"
  const ResponseInstruction: string :=
    "Respond with complete valid JSON only. Do not use markdown formatting."

  /** `create_user_prompt`: the case text and the dispute-type value inside a fixed template. */
  function UserPrompt(caseText: string, disputeType: string): (p: string)
    ensures StartsWith(p, UserPromptHead) && EndsWith(p, UserPromptTail)
    ensures |p| == |UserPromptHead| + |caseText| + |UserPromptMid| + |disputeType| + |UserPromptTail|
  {
    UserPromptHead + (caseText + UserPromptMid + disputeType) + UserPromptTail
  }

  /** The case text a user prompt for `disputeType` carries (the inverse of `UserPrompt`). */
  function CaseTextOf(p: string, disputeType: string): string
    requires |p| >= |UserPromptHead| + |UserPromptMid| + |disputeType| + |UserPromptTail|
  {
    p[|UserPromptHead|..|p| - |UserPromptMid| - |disputeType| - |UserPromptTail|]
  }

  /** The user prompt carries the case text verbatim: it can be read back out. */
  lemma UserPromptRoundTrip(caseText: string, disputeType: string)
    ensures CaseTextOf(UserPrompt(caseText, disputeType), disputeType) == caseText
  {
    var post := UserPromptMid + disputeType + UserPromptTail;
    Regroup4(UserPromptHead, caseText, UserPromptMid, disputeType, UserPromptTail);
    FramedMiddle(UserPromptHead, caseText, post);
  }

  lemma Regroup4(h: string, c: string, m: string, v: string, t: string)
    ensures h + (c + m + v) + t == h + c + (m + v + t)
  {
  }

  /** The middle of `pre + u + post`, once the known outer parts are cut away, is `u`. */
  lemma FramedMiddle(pre: string, u: string, post: string)
    ensures (pre + u + post)[|pre|..|pre + u + post| - |post|] == u
  {
    assert pre + u + post == pre + (u + post);
  }

  /** The full prompt sent to the model: system prompt, user prompt, closing instruction. */
  function FullPrompt(caseText: string, disputeType: Models.DisputeType): (p: string)
    ensures StartsWith(p, SystemPrompt + "\n\n")
    ensures EndsWith(p, "\n\n" + ResponseInstruction)
  {
    (SystemPrompt + "\n\n") + UserPrompt(caseText, disputeType.Value()) + ("\n\n" + ResponseInstruction)
  }

  /** Between the system prompt and the closing instruction lies exactly the user prompt. */
  lemma FullPromptCarriesUserPrompt(caseText: string, disputeType: Models.DisputeType)
    ensures var p := FullPrompt(caseText, disputeType);
      p[|SystemPrompt| + 2..|p| - |ResponseInstruction| - 2] == UserPrompt(caseText, disputeType.Value())
  {
    FramedMiddle(SystemPrompt + "\n\n", UserPrompt(caseText, disputeType.Value()), "\n\n" + ResponseInstruction);
  }

  /** No dispute-type value ends with a different one. */
  lemma DisputeValueSuffixFree(d1: Models.DisputeType, d2: Models.DisputeType)
    requires EndsWith(d2.Value(), d1.Value())
    ensures d1 == d2
  {
  }

  /** Splitting `c + mid + v` back into `c` and `v`, given two candidate splits with suffix-free `v`s. */
  lemma SplitUnique(c1: string, v1: string, c2: string, v2: string, mid: string)
    requires c1 + mid + v1 == c2 + mid + v2
    requires |v1| == |v2|
    ensures c1 == c2 && v1 == v2
  {
    var b := c1 + mid + v1;
    assert v1 == b[|b| - |v1|..];
    assert v2 == (c2 + mid + v2)[|b| - |v2|..];
    assert c1 == b[..|c1|];
    assert c2 == (c2 + mid + v2)[..|c2|];
  }

  lemma FramedInjective(pre: string, u1: string, u2: string, post: string)
    requires pre + u1 + post == pre + u2 + post
    ensures u1 == u2
  {
    FramedMiddle(pre, u1, post);
    FramedMiddle(pre, u2, post);
  }

  /** Equal user prompts carry equal case-text-and-dispute-type bodies. */
  lemma UserPromptBodies(c1: string, v1: string, c2: string, v2: string)
    requires UserPrompt(c1, v1) == UserPrompt(c2, v2)
    ensures c1 + UserPromptMid + v1 == c2 + UserPromptMid + v2
  {
    FramedInjective(UserPromptHead, c1 + UserPromptMid + v1, c2 + UserPromptMid + v2, UserPromptTail);
  }

  /** The user prompt determines both the case text and the dispute type. */
  lemma UserPromptInjective(c1: string, d1: Models.DisputeType, c2: string, d2: Models.DisputeType)
    requires UserPrompt(c1, d1.Value()) == UserPrompt(c2, d2.Value())
    ensures c1 == c2 && d1 == d2
  {
    var v1, v2 := d1.Value(), d2.Value();
    UserPromptBodies(c1, v1, c2, v2);
    var b1 := c1 + UserPromptMid + v1;
    var b2 := c2 + UserPromptMid + v2;
    if |v1| <= |v2| {
      assert v1 == b1[|b1| - |v1|..] == b2[|b2| - |v1|..] == v2[|v2| - |v1|..];
      DisputeValueSuffixFree(d1, d2);
    } else {
      assert v2 == b2[|b2| - |v2|..] == b1[|b1| - |v2|..] == v1[|v1| - |v2|..];
      DisputeValueSuffixFree(d2, d1);
    }
    SplitUnique(c1, v1, c2, v2, UserPromptMid);
  }

  /**
    Prompt composition is injective: the full prompt determines both the case text and the
    dispute type it was built from, so distinct requests never share a prompt.
   */
  lemma FullPromptInjective(c1: string, d1: Models.DisputeType, c2: string, d2: Models.DisputeType)
    requires FullPrompt(c1, d1) == FullPrompt(c2, d2)
    ensures c1 == c2 && d1 == d2
  {
    FullPromptCarriesUserPrompt(c1, d1);
    FullPromptCarriesUserPrompt(c2, d2);
    UserPromptInjective(c1, d1, c2, d2);
  }

  // ---------------------------------------------------------------------------------------
  // Fence stripping
  // ---------------------------------------------------------------------------------------

  const Fence: string := "```"
  const JsonFence: string := "```json"

  /** Drop a leading "```json", or else a leading "```". */
  function DropOpenFence(t: string): (r: string)
    ensures |r| <= |t|
    ensures r == t || StartsWith(t, Fence)
  {
    if StartsWith(t, JsonFence) then t[|JsonFence|..]
    else if StartsWith(t, Fence) then t[|Fence|..]
    else t
  }

  /** Drop a trailing "```". */
  function DropCloseFence(t: string): (r: string)
    ensures |r| <= |t|
    ensures r == t || EndsWith(t, Fence)
  {
    if EndsWith(t, Fence) then t[..|t| - |Fence|] else t
  }

  /** The cleaning step: strip, drop the opening fence, drop the closing fence, strip again. */
  function StripFences(responseText: string): (cleaned: string)
    ensures Trimmed(cleaned)
    ensures |cleaned| <= |responseText|
  {
    Strip(DropCloseFence(DropOpenFence(Strip(responseText))))
  }

  /** Cleaned text that is treated as no answer at all. */
  predicate IsBareFence(cleaned: string) {
    cleaned == [] || cleaned == JsonFence || cleaned == Fence
  }

  /** The payload wrapped the way the model usually wraps it. */
  function Fenced(payload: string): string {
    JsonFence + (("\n" + payload + "\n") + Fence)
  }

  lemma NoOpenFence(t: string)
    requires !StartsWith(t, Fence)
    ensures DropOpenFence(t) == t
  {
    assert !StartsWith(t, JsonFence) by {
      if |JsonFence| <= |t| {
        assert t[..|Fence|] == t[..|JsonFence|][..|Fence|];
      }
    }
  }

  lemma NoCloseFence(t: string)
    requires !EndsWith(t, Fence)
    ensures DropCloseFence(t) == t
  {
  }

  lemma OpenJsonFence(x: string)
    ensures DropOpenFence(JsonFence + x) == x
  {
    assert (JsonFence + x)[..|JsonFence|] == JsonFence;
  }

  /** A plain opening fence not followed by 'j' is dropped on its own. */
  lemma OpenPlainFence(x: string)
    requires x != [] && x[0] != 'j'
    ensures DropOpenFence(Fence + x) == x
  {
    var s := Fence + x;
    assert s[..|Fence|] == Fence;
    assert !StartsWith(s, JsonFence) by {
      assert s[3] == x[0];
      if |JsonFence| <= |s| {
        assert s[..|JsonFence|][3] == s[3];
      }
    }
  }

  lemma CloseFenceDrop(x: string)
    ensures DropCloseFence(x + Fence) == x
  {
    assert (x + Fence)[|x|..] == Fence;
    assert (x + Fence)[..|x|] == x;
  }

  lemma FencedIsTrimmed(payload: string)
    ensures Trimmed(Fenced(payload))
  {
    var s := Fenced(payload);
    assert s[0] == '`' && s[|s| - 1] == '`';
  }

  /** The cleaning step, stage by stage. */
  lemma StripFencesStages(s: string, t: string, o: string, c: string)
    requires Strip(s) == t && DropOpenFence(t) == o && DropCloseFence(o) == c
    ensures StripFences(s) == Strip(c)
  {
  }

  /** A payload fenced as "```json" ... "```" cleans to the stripped payload. */
  lemma FencedPayloadCleans(payload: string)
    ensures StripFences(Fenced(payload)) == Strip(payload)
  {
    FencedCleansToInner(payload);
    NewlinePaddingStrips(payload);
  }

  lemma FencedCleansToInner(payload: string)
    ensures StripFences(Fenced(payload)) == Strip("\n" + payload + "\n")
  {
    var inner := "\n" + payload + "\n";
    FencedIsTrimmed(payload);
    StripOfTrimmed(Fenced(payload));
    OpenJsonFence(inner + Fence);
    CloseFenceDrop(inner);
  }

  lemma NewlinePaddingStrips(payload: string)
    ensures Strip("\n" + payload + "\n") == Strip(payload)
  {
    NewlineIsSpace();
    StripAbsorbsPadding("\n", payload, "\n");
  }

  // ---------------------------------------------------------------------------------------
  // Repair of a decoded object
  // ---------------------------------------------------------------------------------------

  const DefaultScore: real := 6.0

  const DefaultSummary: Json := JObj(map[
    "facts" := JStr("Case analysis completed"),
    "claims" := JStr("Legal claims identified"),
    "dispute_nature" := JStr("Property dispute")])

  /** The `setdefault` calls made before the confidence score is coerced, in source order. */
  const DefaultsBeforeScore: seq<(string, Json)> := [
    ("legal_issues", Strings(["Property law analysis required"])),
    ("applicable_laws", JArr([JObj(map[
      "law" := JStr("Karnataka Land Revenue Act"),
      "relevance" := JStr("Property matters")])])),
    ("missing_evidence", Strings(["Property documents"])),
    ("strategies", JObj(map[
      "plaintiff" := Strings(["Legal consultation"]),
      "defendant" := Strings(["Document review"])]))]

  /** The `setdefault` calls made after the confidence score is coerced, in source order. */
  const DefaultsAfterScore: seq<(string, Json)> := [
    ("next_steps", Strings(["Consult legal expert"])),
    ("estimated_timeline", JStr("3-6 months")),
    ("estimated_costs", JStr("\U{20B9}50,000 - \U{20B9}2,00,000"))]

  function KeysOf(entries: seq<(string, Json)>): set<string> {
    if entries == [] then {} else {entries[0].0} + KeysOf(entries[1..])
  }

  /** The value the first entry for `k` supplies. */
  function DefaultFor(entries: seq<(string, Json)>, k: string): Json
    requires k in KeysOf(entries)
  {
    if entries[0].0 == k then entries[0].1 else DefaultFor(entries[1..], k)
  }

  /** The keys `setdefault` fills when absent. */
  const DefaultedKeys: set<string> := KeysOf(DefaultsBeforeScore + DefaultsAfterScore)

  /** Every key the repaired record is guaranteed to hold. */
  const RepairedKeys: set<string> := DefaultedKeys + {"case_summary", "confidence_score"}

  /** The value `setdefault` supplies for a defaulted key. */
  function FieldDefault(k: string): Json
    requires k in DefaultedKeys
  {
    DefaultFor(DefaultsBeforeScore + DefaultsAfterScore, k)
  }

  lemma {:induction false} KeysOfAppend(a: seq<(string, Json)>, b: seq<(string, Json)>)
    ensures KeysOf(a + b) == KeysOf(a) + KeysOf(b)
    decreases |a|
  {
    if a != [] {
      assert (a + b)[1..] == a[1..] + b;
      KeysOfAppend(a[1..], b);
    } else {
      assert a + b == b;
    }
  }

  lemma {:induction false} DefaultForAppend(a: seq<(string, Json)>, b: seq<(string, Json)>, k: string)
    requires k in KeysOf(a + b)
    ensures k in KeysOf(a) ==> DefaultFor(a + b, k) == DefaultFor(a, k)
    ensures k !in KeysOf(a) ==> k in KeysOf(b) && DefaultFor(a + b, k) == DefaultFor(b, k)
    decreases |a|
  {
    KeysOfAppend(a, b);
    if a != [] {
      assert (a + b)[1..] == a[1..] + b;
      if a[0].0 != k {
        DefaultForAppend(a[1..], b, k);
      }
    } else {
      assert a + b == b;
    }
  }

  /** The key sets of the two default lists, spelled out. */
  lemma DefaultKeySets()
    ensures KeysOf(DefaultsBeforeScore) == {"legal_issues", "applicable_laws", "missing_evidence", "strategies"}
    ensures KeysOf(DefaultsAfterScore) == {"next_steps", "estimated_timeline", "estimated_costs"}
    ensures DefaultedKeys == KeysOf(DefaultsBeforeScore) + KeysOf(DefaultsAfterScore)
    ensures "case_summary" !in DefaultedKeys && "confidence_score" !in DefaultedKeys
    ensures "precedents" !in RepairedKeys
  {
    KeysOfAppend(DefaultsBeforeScore, DefaultsAfterScore);
  }

  /** `dict.setdefault(k, d)`. */
  function SetDefault(m: map<string, Json>, k: string, d: Json): map<string, Json> {
    if k in m then m else m[k := d]
  }

  /** A run of `setdefault` calls over `entries`, in order. */
  function SetDefaults(m: map<string, Json>, entries: seq<(string, Json)>): (r: map<string, Json>)
    ensures r.Keys == m.Keys + KeysOf(entries)
    decreases |entries|
  {
    if entries == [] then m
    else SetDefaults(SetDefault(m, entries[0].0, entries[0].1), entries[1..])
  }

  /** `setdefault` never overwrites: a key already present keeps its value. */
  lemma {:induction false} SetDefaultsKeeps(m: map<string, Json>, entries: seq<(string, Json)>, k: string)
    requires k in m
    ensures SetDefaults(m, entries)[k] == m[k]
    decreases |entries|
  {
    if entries != [] {
      SetDefaultsKeeps(SetDefault(m, entries[0].0, entries[0].1), entries[1..], k);
    }
  }

  /** An absent key receives the value of the first entry that names it. */
  lemma {:induction false} SetDefaultsFills(m: map<string, Json>, entries: seq<(string, Json)>, k: string)
    requires k !in m && k in KeysOf(entries)
    ensures SetDefaults(m, entries)[k] == DefaultFor(entries, k)
    decreases |entries|
  {
    var m' := SetDefault(m, entries[0].0, entries[0].1);
    if entries[0].0 == k {
      SetDefaultsKeeps(m', entries[1..], k);
    } else {
      SetDefaultsFills(m', entries[1..], k);
    }
  }

  /** A stored confidence score: an integer in [1, 10]. */
  predicate IsScore(j: Json) {
    j.JNum? && j.n == j.n.Floor as real && 1.0 <= j.n <= 10.0
  }

  /**
    The confidence-score rule: a number (a bool counts, as 1 or 0) in [1, 10] becomes its
    integer part; anything else becomes 6.
   */
  function CoerceScore(j: Json): (s: Json)
    ensures IsScore(s)
    ensures NumericValue(j).Some? && 1.0 <= NumericValue(j).value <= 10.0 ==>
      s.n <= NumericValue(j).value < s.n + 1.0
    ensures !(NumericValue(j).Some? && 1.0 <= NumericValue(j).value <= 10.0) ==> s == JNum(DefaultScore)
  {
    match NumericValue(j)
    case Some(x) => if 1.0 <= x <= 10.0 then JNum(x.Floor as real) else JNum(DefaultScore)
    case None => JNum(DefaultScore)
  }

  /** Coercion leaves a valid score alone. */
  lemma CoerceScoreKeepsScores(j: Json)
    requires IsScore(j)
    ensures CoerceScore(j) == j
  {
  }

  /** The summary rule: any object is kept as it is, anything else becomes the default summary. */
  function RepairSummary(m: map<string, Json>): Json {
    if "case_summary" in m && m["case_summary"].JObj? then m["case_summary"] else DefaultSummary
  }

  /**
    The field repair of a decoded object, step by step as the source performs it: the summary
    check, four `setdefault` calls, the confidence-score coercion, three more `setdefault` calls.
   */
  function Repair(m: map<string, Json>): map<string, Json> {
    var m1 := m["case_summary" := RepairSummary(m)];
    var m2 := SetDefaults(m1, DefaultsBeforeScore);
    var m3 := m2["confidence_score" := CoerceScore(GetOr(m2, "confidence_score", JNum(DefaultScore)))];
    SetDefaults(m3, DefaultsAfterScore)
  }

  /** The repaired record holds every key of the input plus every key repair guarantees. */
  lemma RepairKeys(m: map<string, Json>)
    ensures Repair(m).Keys == m.Keys + RepairedKeys
  {
    KeysOfAppend(DefaultsBeforeScore, DefaultsAfterScore);
  }

  /** `case_summary` is replaced wholesale iff it is absent or not an object. */
  lemma RepairKeepsObjectSummary(m: map<string, Json>)
    ensures "case_summary" in Repair(m) && Repair(m)["case_summary"] == RepairSummary(m)
    ensures Repair(m)["case_summary"].JObj?
    ensures "case_summary" in m && m["case_summary"].JObj? ==> Repair(m)["case_summary"] == m["case_summary"]
    ensures !("case_summary" in m && m["case_summary"].JObj?) ==> Repair(m)["case_summary"] == DefaultSummary
  {
    var m1 := m["case_summary" := RepairSummary(m)];
    var m2 := SetDefaults(m1, DefaultsBeforeScore);
    var m3 := m2["confidence_score" := CoerceScore(GetOr(m2, "confidence_score", JNum(DefaultScore)))];
    SetDefaultsKeeps(m1, DefaultsBeforeScore, "case_summary");
    SetDefaultsKeeps(m3, DefaultsAfterScore, "case_summary");
  }

  /**
    The confidence score is read from the input (6 when absent) and coerced: the stored score is
    always an integer in [1, 10].
   */
  lemma RepairCoercesScore(m: map<string, Json>)
    ensures "confidence_score" in Repair(m)
    ensures Repair(m)["confidence_score"] == CoerceScore(GetOr(m, "confidence_score", JNum(DefaultScore)))
    ensures IsScore(Repair(m)["confidence_score"])
  {
    DefaultKeySets();
    var m1 := m["case_summary" := RepairSummary(m)];
    var m2 := SetDefaults(m1, DefaultsBeforeScore);
    var score := CoerceScore(GetOr(m2, "confidence_score", JNum(DefaultScore)));
    var m3 := m2["confidence_score" := score];
    if "confidence_score" in m {
      SetDefaultsKeeps(m1, DefaultsBeforeScore, "confidence_score");
    }
    assert GetOr(m2, "confidence_score", JNum(DefaultScore)) == GetOr(m, "confidence_score", JNum(DefaultScore));
    SetDefaultsKeeps(m3, DefaultsAfterScore, "confidence_score");
  }

  /**
    Each defaulted key keeps its present value, however empty or wrongly typed, and receives its
    fixed default only when absent.
   */
  lemma RepairFillsOnlyAbsentKeys(m: map<string, Json>, k: string)
    requires k in DefaultedKeys
    ensures k in Repair(m)
    ensures k in m ==> Repair(m)[k] == m[k]
    ensures k !in m ==> Repair(m)[k] == FieldDefault(k)
  {
    DefaultKeySets();
    var m1 := m["case_summary" := RepairSummary(m)];
    var m2 := SetDefaults(m1, DefaultsBeforeScore);
    var m3 := m2["confidence_score" := CoerceScore(GetOr(m2, "confidence_score", JNum(DefaultScore)))];
    KeysOfAppend(DefaultsBeforeScore, DefaultsAfterScore);
    DefaultForAppend(DefaultsBeforeScore, DefaultsAfterScore, k);
    if k in m {
      SetDefaultsKeeps(m1, DefaultsBeforeScore, k);
      SetDefaultsKeeps(m3, DefaultsAfterScore, k);
    } else if k in KeysOf(DefaultsBeforeScore) {
      SetDefaultsFills(m1, DefaultsBeforeScore, k);
      SetDefaultsKeeps(m3, DefaultsAfterScore, k);
    } else {
      SetDefaultsFills(m3, DefaultsAfterScore, k);
    }
  }

  /** Keys repair does not touch, such as `precedents`, pass through unchanged. */
  lemma RepairPassesOtherKeys(m: map<string, Json>, k: string)
    requires k in m && k !in RepairedKeys
    ensures k in Repair(m) && Repair(m)[k] == m[k]
  {
    var m1 := m["case_summary" := RepairSummary(m)];
    var m2 := SetDefaults(m1, DefaultsBeforeScore);
    var m3 := m2["confidence_score" := CoerceScore(GetOr(m2, "confidence_score", JNum(DefaultScore)))];
    SetDefaultsKeeps(m1, DefaultsBeforeScore, k);
    SetDefaultsKeeps(m3, DefaultsAfterScore, k);
  }

  /** A record in the shape repair produces: every guaranteed key, an object summary, a valid score. */
  predicate IsRepaired(r: map<string, Json>) {
    && RepairedKeys <= r.Keys
    && r["case_summary"].JObj?
    && IsScore(r["confidence_score"])
  }

  /** The score of a repaired record: present, integral and in [1, 10]. */
  lemma RepairedScore(r: map<string, Json>)
    requires IsRepaired(r)
    ensures "confidence_score" in r && IsScore(r["confidence_score"])
    ensures 1.0 <= r["confidence_score"].n <= 10.0
  {
  }

  /** Every repaired record has the repaired shape. */
  lemma RepairEstablishesShape(m: map<string, Json>)
    ensures IsRepaired(Repair(m))
  {
    RepairKeys(m);
    RepairKeepsObjectSummary(m);
    RepairCoercesScore(m);
  }

  lemma RepairFixesAt(r: map<string, Json>, k: string)
    requires IsRepaired(r) && k in r
    ensures k in Repair(r) && Repair(r)[k] == r[k]
  {
    RepairKeys(r);
    if k == "case_summary" {
      RepairKeepsObjectSummary(r);
    } else if k == "confidence_score" {
      RepairCoercesScore(r);
      CoerceScoreKeepsScores(r["confidence_score"]);
    } else if k in DefaultedKeys {
      RepairFillsOnlyAbsentKeys(r, k);
    } else {
      RepairPassesOtherKeys(r, k);
    }
  }

  /** The records repair leaves unchanged are exactly those already in the repaired shape. */
  lemma RepairFixedPoints(r: map<string, Json>)
    ensures Repair(r) == r <==> IsRepaired(r)
  {
    RepairEstablishesShape(r);
    if IsRepaired(r) {
      RepairFixesAll(r);
      SameEntries(Repair(r), r);
    }
  }

  lemma RepairFixesAll(r: map<string, Json>)
    requires IsRepaired(r)
    ensures Repair(r).Keys == r.Keys
    ensures forall k :: k in r ==> Repair(r)[k] == r[k]
  {
    RepairKeys(r);
    forall k | k in r
      ensures Repair(r)[k] == r[k]
    {
      RepairFixesAt(r, k);
    }
  }

  /** Two maps with the same keys and the same value under each are equal. */
  lemma SameEntries(a: map<string, Json>, b: map<string, Json>)
    requires a.Keys == b.Keys && forall k :: k in b ==> a[k] == b[k]
    ensures a == b
  {
  }

  /** Repairing a repaired record changes nothing. */
  lemma RepairIdempotent(m: map<string, Json>)
    ensures Repair(Repair(m)) == Repair(m)
  {
    RepairEstablishesShape(m);
    RepairFixedPoints(Repair(m));
  }

  // ---------------------------------------------------------------------------------------
  // The fallback record
  // ---------------------------------------------------------------------------------------

  /** The constant low-confidence record substituted when the answer cannot be used. */
  function FallbackResponse(): map<string, Json> {
    map[
      "case_summary" := JObj(map[
        "facts" := JStr("AI analysis completed but response format needs review."),
        "claims" := JStr("Please consult with a legal expert for detailed analysis."),
        "dispute_nature" := JStr("Property dispute requiring professional legal review.")]),
      "legal_issues" := Strings([
        "Property rights and ownership",
        "Legal documentation and compliance",
        "Jurisdictional requirements"]),
      "applicable_laws" := JArr([
        JObj(map[
          "law" := JStr("Karnataka Land Revenue Act, 1964"),
          "relevance" := JStr("Governs land records and revenue matters in Karnataka")]),
        JObj(map[
          "law" := JStr("Registration Act, 1908"),
          "relevance" := JStr("Governs property registration and documentation")])]),
      "missing_evidence" := Strings([
        "Property title documents",
        "Survey settlement records",
        "Revenue records (Pahani/Khata)",
        "Registration documents"]),
      "strategies" := JObj(map[
        "plaintiff" := Strings([
          "Gather all property documents",
          "Consult with a property lawyer",
          "Verify title and ownership records"]),
        "defendant" := Strings([
          "Review all claims and documents",
          "Seek legal counsel",
          "Prepare counter-documentation"])]),
      "confidence_score" := JNum(3.0),
      "next_steps" := Strings([
        "Consult with a qualified property lawyer in Bangalore",
        "Gather all relevant property documents",
        "Verify records with revenue authorities",
        "Consider mediation before litigation"]),
      "precedents" := JArr([
        JObj(map[
          "case" := JStr("Karnataka High Court precedents on property disputes"),
          "relevance" := JStr("Provides guidance on similar property matters in Karnataka")])]),
      "estimated_timeline" := JStr("6-18 months depending on case complexity and court proceedings"),
      "estimated_costs" := JStr("\U{20B9}1,00,000 - \U{20B9}5,00,000 including legal fees and court costs")]
  }

  /** The fallback record is in the repaired shape, with the low score 3. */
  lemma FallbackHasRepairedShape()
    ensures IsRepaired(FallbackResponse())
    ensures FallbackResponse()["confidence_score"] == JNum(3.0)
  {
    DefaultKeySets();
  }

  /** The fallback record is already repaired: repair leaves it unchanged. */
  lemma FallbackIsRepaired()
    ensures Repair(FallbackResponse()) == FallbackResponse()
  {
    FallbackHasRepairedShape();
    RepairFixedPoints(FallbackResponse());
  }

  // ---------------------------------------------------------------------------------------
  // The normaliser
  // ---------------------------------------------------------------------------------------

  /** The object the normaliser repairs, when the cleaned text decodes to one. */
  function DecodedCleaned(decode: string -> Option<Json>, cleaned: string): Option<map<string, Json>> {
    if IsBareFence(cleaned) then None
    else
      var d := decode(cleaned);
      if d.Some? && d.value.JObj? then Some(d.value.fields) else None
  }

  /** The object the normaliser repairs, when the cleaned answer decodes to one. */
  function DecodedObject(decode: string -> Option<Json>, responseText: string): Option<map<string, Json>> {
    DecodedCleaned(decode, StripFences(responseText))
  }

  /**
    What the normaliser does with the cleaned text: repair the decoded object, or else answer
    with `fallback`.
   */
  function Normalise(decode: string -> Option<Json>, cleaned: string, fallback: map<string, Json>): (r: map<string, Json>)
    ensures IsRepaired(fallback) ==> IsRepaired(r)
    ensures IsBareFence(cleaned) ==> r == fallback
  {
    var d := DecodedCleaned(decode, cleaned);
    if d.Some? then
      RepairEstablishesShape(d.value);
      Repair(d.value)
    else
      fallback
  }

  /**
    `_parse_ai_response`: never fails. Bare or empty answers and answers that do not decode to
    a JSON object give the fallback record; a decoded object is repaired.
   */
  function ParseAiResponse(decode: string -> Option<Json>, responseText: string): (r: map<string, Json>)
    ensures IsRepaired(r)
    ensures IsBareFence(StripFences(responseText)) ==> r == FallbackResponse()
  {
    FallbackHasRepairedShape();
    Normalise(decode, StripFences(responseText), FallbackResponse())
  }

  /** The normaliser either repairs the decoded object or gives the fallback record. */
  lemma ParseAiResponseOutcomes(decode: string -> Option<Json>, responseText: string)
    ensures DecodedObject(decode, responseText).Some? ==>
      ParseAiResponse(decode, responseText) == Repair(DecodedObject(decode, responseText).value)
    ensures DecodedObject(decode, responseText).None? ==>
      ParseAiResponse(decode, responseText) == FallbackResponse()
  {
    NormaliseOutcomes(decode, StripFences(responseText), FallbackResponse());
  }

  lemma NormaliseOutcomes(decode: string -> Option<Json>, cleaned: string, fallback: map<string, Json>)
    ensures DecodedCleaned(decode, cleaned).Some? ==>
      Normalise(decode, cleaned, fallback) == Repair(DecodedCleaned(decode, cleaned).value)
    ensures DecodedCleaned(decode, cleaned).None? ==> Normalise(decode, cleaned, fallback) == fallback
  {
  }

  /**
    `analyze_case`: the full prompt goes to the model and its answer is normalised. The model call
    is the parameter `ask`, with `None` for a failed request; an empty answer text fails too. These
    are the only failures: any non-empty answer becomes a repaired record.
   */
  function AnalyzeCase(ask: string -> Option<string>, decode: string -> Option<Json>,
                       caseText: string, disputeType: Models.DisputeType): (r: Option<map<string, Json>>)
    ensures r.None? <==> ask(FullPrompt(caseText, disputeType)).None? || ask(FullPrompt(caseText, disputeType)).value == []
    ensures r.Some? ==> IsRepaired(r.value)
    ensures r.Some? ==> r.value == ParseAiResponse(decode, ask(FullPrompt(caseText, disputeType)).value)
  {
    AnswerRecord(decode, ask(FullPrompt(caseText, disputeType)))
  }

  /** The record made from the model's answer: none for a failed call or an empty text. */
  function AnswerRecord(decode: string -> Option<Json>, answer: Option<string>): (r: Option<map<string, Json>>)
    ensures r.None? <==> answer.None? || answer.value == []
    ensures r.Some? ==> IsRepaired(r.value) && r.value == ParseAiResponse(decode, answer.value)
  {
    if answer.None? || answer.value == [] then None else Some(ParseAiResponse(decode, answer.value))
  }

  /** An answer that does not decode, or decodes to something other than an object, falls back. */
  lemma UndecodableFallsBack(decode: string -> Option<Json>, responseText: string)
    requires !IsBareFence(StripFences(responseText))
    requires decode(StripFences(responseText)).None? || !decode(StripFences(responseText)).value.JObj?
    ensures ParseAiResponse(decode, responseText) == FallbackResponse()
  {
    NormaliseUndecodable(decode, StripFences(responseText), FallbackResponse());
  }

  lemma NormaliseObject(decode: string -> Option<Json>, cleaned: string, fallback: map<string, Json>, m: map<string, Json>)
    requires !IsBareFence(cleaned) && decode(cleaned) == Some(JObj(m))
    ensures Normalise(decode, cleaned, fallback) == Repair(m)
  {
    assert DecodedCleaned(decode, cleaned) == Some(m);
  }

  lemma NormaliseUndecodable(decode: string -> Option<Json>, cleaned: string, fallback: map<string, Json>)
    requires !IsBareFence(cleaned)
    requires decode(cleaned).None? || !decode(cleaned).value.JObj?
    ensures Normalise(decode, cleaned, fallback) == fallback
  {
  }

  /** A non-empty text that does not open with a fence is not a bare fence. */
  lemma NotBareFence(t: string)
    requires t != [] && !StartsWith(t, Fence)
    ensures !IsBareFence(t)
  {
    assert StartsWith(JsonFence, Fence);
  }

  /** Repairing an object that carries only a score of 9 keeps the score and fills in the rest. */
  lemma ScoreOnlyRepair(k: string)
    requires k in DefaultedKeys
    ensures var r := Repair(map["confidence_score" := JNum(9.0)]);
      && r["confidence_score"] == JNum(9.0)
      && r["case_summary"] == DefaultSummary
      && k in r && r[k] == FieldDefault(k)
  {
    var m := map["confidence_score" := JNum(9.0)];
    RepairCoercesScore(m);
    CoerceScoreKeepsScores(JNum(9.0));
    RepairKeepsObjectSummary(m);
    DefaultKeySets();
    RepairFillsOnlyAbsentKeys(m, k);
  }

  /**
    A fenced answer whose payload decodes to an object parses as the repair of that object,
    whatever the decoder does with other texts.
   */
  lemma FencedObjectRepaired(decode: string -> Option<Json>, payload: string, m: map<string, Json>)
    requires Strip(payload) != []
    requires !StartsWith(Strip(payload), Fence) && !EndsWith(Strip(payload), Fence)
    requires decode(Strip(payload)) == Some(JObj(m))
    ensures ParseAiResponse(decode, Fenced(payload)) == Repair(m)
  {
    FencedParsesLikeBare(decode, payload);
    UnfencedObjectRepaired(decode, payload, m);
  }

  lemma UnfencedObjectRepaired(decode: string -> Option<Json>, payload: string, m: map<string, Json>)
    requires Strip(payload) != []
    requires !StartsWith(Strip(payload), Fence) && !EndsWith(Strip(payload), Fence)
    requires decode(Strip(payload)) == Some(JObj(m))
    ensures ParseAiResponse(decode, payload) == Repair(m)
  {
    StripFencesOfUnfenced(payload);
    NotBareFence(Strip(payload));
    NormaliseObject(decode, Strip(payload), FallbackResponse(), m);
  }

  /**
    A fenced answer that decodes to an object carrying only a score of 9 keeps the score and
    receives the default summary and every default field.
   */
  lemma ScoreOnlyAnswer(decode: string -> Option<Json>, payload: string, k: string)
    requires Strip(payload) != []
    requires !StartsWith(Strip(payload), Fence) && !EndsWith(Strip(payload), Fence)
    requires decode(Strip(payload)) == Some(JObj(map["confidence_score" := JNum(9.0)]))
    requires k in DefaultedKeys
    ensures var r := ParseAiResponse(decode, Fenced(payload));
      && r["confidence_score"] == JNum(9.0)
      && r["case_summary"] == DefaultSummary
      && k in r && r[k] == FieldDefault(k)
  {
    FencedObjectRepaired(decode, payload, map["confidence_score" := JNum(9.0)]);
    ScoreOnlyRepair(k);
  }

  /** Cleaning leaves a text alone when its trimmed form carries no fence at either end. */
  lemma StripFencesOfUnfenced(s: string)
    requires !StartsWith(Strip(s), Fence) && !EndsWith(Strip(s), Fence)
    ensures StripFences(s) == Strip(s)
  {
    NoOpenFence(Strip(s));
    NoCloseFence(Strip(s));
    StripIdempotent(s);
  }

  /**
    Wrapping a payload in a "```json" fence does not change the outcome, for every decoder, as
    long as the payload itself neither starts nor ends with a fence.
   */
  lemma FencedParsesLikeBare(decode: string -> Option<Json>, payload: string)
    requires !StartsWith(Strip(payload), Fence) && !EndsWith(Strip(payload), Fence)
    ensures ParseAiResponse(decode, Fenced(payload)) == ParseAiResponse(decode, payload)
  {
    FencedPayloadCleans(payload);
    StripFencesOfUnfenced(payload);
  }

  /** Stripping a text that begins with a non-space character keeps that first character. */
  lemma StripKeepsFirst(x: string)
    requires x != [] && !IsSpace(x[0])
    ensures Strip(x) != [] && Strip(x)[0] == x[0]
  {
    assert [] + x == x;
    LStripOfSpacePrefix([], x);
  }

  /**
    A text fenced by plain "```" on both sides, whose first inner character is neither space nor
    'j', loses exactly the two fences before the final strip.
   */
  lemma StripFencesOfPlainFence(x: string)
    requires x != [] && !IsSpace(x[0]) && x[0] != 'j'
    ensures StripFences(Fence + x + Fence) == Strip(x)
  {
    PlainFencedStages(x);
    StripFencesStages(Fence + x + Fence, Fence + x + Fence, x + Fence, x);
  }

  lemma PlainFencedStages(x: string)
    requires x != [] && !IsSpace(x[0]) && x[0] != 'j'
    ensures Strip(Fence + x + Fence) == Fence + x + Fence
    ensures DropOpenFence(Fence + x + Fence) == x + Fence
    ensures DropCloseFence(x + Fence) == x
  {
    PlainFencedStrips(x);
    PlainFencedOpens(x);
    CloseFenceDrop(x);
  }

  lemma PlainFencedStrips(x: string)
    requires x != [] && !IsSpace(x[0])
    ensures Strip(Fence + x + Fence) == Fence + x + Fence
  {
    PlainFencedShape(x);
    StripOfTrimmed(Fence + x + Fence);
  }

  lemma PlainFencedOpens(x: string)
    requires x != [] && !IsSpace(x[0]) && x[0] != 'j'
    ensures DropOpenFence(Fence + x + Fence) == x + Fence
  {
    PlainFencedShape(x);
    OpenPlainFence(x + Fence);
  }

  lemma PlainFencedShape(x: string)
    requires x != [] && !IsSpace(x[0])
    ensures Trimmed(Fence + x + Fence)
    ensures Fence + x + Fence == Fence + (x + Fence)
    ensures (x + Fence)[0] == x[0]
  {
    var s := Fence + x + Fence;
    assert s[0] == '`' && s[|s| - 1] == '`';
  }

  /** An answer tagged "```JSON" cleans to text that starts with the tag's letters. */
  lemma UppercaseTagCleaning(payload: string)
    ensures var cleaned := StripFences("```JSON\n" + payload + "\n```");
      cleaned != [] && cleaned[0] == 'J'
  {
    var x := "JSON\n" + payload + "\n";
    UppercaseTagShape(payload);
    StripFencesOfPlainFence(x);
    StripKeepsFirst(x);
  }

  lemma UppercaseTagShape(payload: string)
    ensures "```JSON\n" + payload + "\n```" == Fence + ("JSON\n" + payload + "\n") + Fence
  {
  }

  /**
    An upper-case "```JSON" tag loses only its three backticks, so the cleaned text starts with
    "JSON". A decoder that rejects such text (as `json.loads` does: no JSON value starts with
    'J') makes the whole answer fall back.
   */
  lemma UppercaseTagFallsBack(decode: string -> Option<Json>, payload: string)
    requires forall t :: t != [] && t[0] == 'J' ==> decode(t).None?
    ensures ParseAiResponse(decode, "```JSON\n" + payload + "\n```") == FallbackResponse()
  {
    UppercaseTagNormalises(decode, payload, FallbackResponse());
  }

  lemma UppercaseTagNormalises(decode: string -> Option<Json>, payload: string, fallback: map<string, Json>)
    requires forall t :: t != [] && t[0] == 'J' ==> decode(t).None?
    ensures Normalise(decode, StripFences("```JSON\n" + payload + "\n```"), fallback) == fallback
  {
    var cleaned := StripFences("```JSON\n" + payload + "\n```");
    UppercaseTagCleaning(payload);
    NotBareFence(cleaned);
    NormaliseUndecodable(decode, cleaned, fallback);
  }

  /** The fallback record's list sizes: 3 issues, 2 laws, 4 evidence items, 4 steps, 1 precedent. */
  lemma FallbackCounts()
    ensures var f := FallbackResponse();
      && |f["legal_issues"].items| == 3
      && |f["applicable_laws"].items| == 2
      && |f["missing_evidence"].items| == 4
      && |f["next_steps"].items| == 4
      && |f["precedents"].items| == 1
  {
  }

  /** The fallback strategies: three for each side. */
  lemma FallbackStrategyCounts()
    ensures var st := FallbackResponse()["strategies"];
      && st.JObj? && "plaintiff" in st.fields && "defendant" in st.fields
      && |st.fields["plaintiff"].items| == 3
      && |st.fields["defendant"].items| == 3
  {
  }

  /** Every field of the fallback record is acceptable to the `AIResponse` schema. */
  lemma FallbackConforms()
    ensures Models.Conforms(FallbackResponse())
    ensures Models.ToAIResponse(JObj(FallbackResponse())).Some?
  {
    var f := FallbackResponse();
    forall k | k in f
      ensures Models.FieldConforms(k, f[k])
    {
      FallbackFieldConforms(k);
    }
    Models.ToAIResponseIff(f);
  }

  lemma FallbackFieldConforms(k: string)
    requires k in FallbackResponse()
    ensures Models.FieldConforms(k, FallbackResponse()[k])
  {
    var f := FallbackResponse();
    if k == "case_summary" {
      assert Models.AsSummary(f[k]).Some?;
    } else if k == "applicable_laws" {
      assert Models.AsLaws(f[k]).Some?;
    } else if k == "strategies" {
      assert Models.AsStrategies(f[k]).Some?;
    } else if k == "precedents" {
      assert Models.AsPrecedents(f[k]).Some?;
    }
  }

  // ---------------------------------------------------------------------------------------
  // Repair against the schema
  // ---------------------------------------------------------------------------------------

  /** Whether repair keeps the input's own value under `k` (rather than replacing it). */
  predicate KeepsOwnValue(m: map<string, Json>, k: string)
    requires k in m
  {
    k != "confidence_score" && (k == "case_summary" ==> m[k].JObj?)
  }

  /** Every value repair keeps from the input is acceptable to the schema. */
  predicate KeptFieldsConform(m: map<string, Json>) {
    forall k :: k in m && KeepsOwnValue(m, k) ==> Models.FieldConforms(k, m[k])
  }

  /** Every value repair itself supplies is acceptable to the schema. */
  lemma RepairDefaultsConform(k: string)
    requires k in DefaultedKeys
    ensures Models.FieldConforms(k, FieldDefault(k))
  {
    DefaultKeySets();
    KeysOfAppend(DefaultsBeforeScore, DefaultsAfterScore);
    if k in KeysOf(DefaultsBeforeScore) {
      DefaultForAppend(DefaultsBeforeScore, DefaultsAfterScore, k);
      if k == "applicable_laws" {
        assert Models.AsLaws(FieldDefault(k)).Some?;
      } else if k == "strategies" {
        assert Models.AsStrategies(FieldDefault(k)).Some?;
      }
    } else {
      DefaultForAppend(DefaultsBeforeScore, DefaultsAfterScore, k);
    }
  }

  lemma DefaultSummaryConforms()
    ensures Models.FieldConforms("case_summary", DefaultSummary)
  {
    assert Models.AsSummary(DefaultSummary).Some?;
  }

  lemma ScoreConforms(j: Json)
    requires IsScore(j)
    ensures Models.FieldConforms("confidence_score", j)
  {
  }

  /** Under each key, repair either keeps the input's value or supplies an acceptable one. */
  lemma RepairKeptOrConforming(m: map<string, Json>, k: string)
    requires k in Repair(m)
    ensures k in m && KeepsOwnValue(m, k) ==> Repair(m)[k] == m[k]
    ensures !(k in m && KeepsOwnValue(m, k)) ==> Models.FieldConforms(k, Repair(m)[k])
  {
    if k == "case_summary" {
      RepairKeepsObjectSummary(m);
      DefaultSummaryConforms();
    } else if k == "confidence_score" {
      RepairCoercesScore(m);
      ScoreConforms(Repair(m)[k]);
    } else {
      RepairKeptOrConformingElsewhere(m, k);
    }
  }

  lemma RepairKeptOrConformingElsewhere(m: map<string, Json>, k: string)
    requires k in Repair(m) && k != "case_summary" && k != "confidence_score"
    ensures k in m ==> Repair(m)[k] == m[k]
    ensures k !in m ==> Models.FieldConforms(k, Repair(m)[k])
  {
    DefaultKeySets();
    RepairKeys(m);
    if k in DefaultedKeys {
      RepairFillsOnlyAbsentKeys(m, k);
      if k !in m {
        RepairDefaultsConform(k);
      }
    } else {
      RepairPassesOtherKeys(m, k);
    }
  }

  lemma RepairFieldConforms(m: map<string, Json>, k: string)
    requires k in Repair(m)
    ensures Models.FieldConforms(k, Repair(m)[k]) <==> (k in m && KeepsOwnValue(m, k) ==> Models.FieldConforms(k, m[k]))
  {
    RepairKeptOrConforming(m, k);
  }

  /**
    The repaired record satisfies the `AIResponse` schema exactly when every value it kept from
    the decoded object does: repair fills absent keys but never corrects a present one.
   */
  lemma RepairConformsIff(m: map<string, Json>)
    ensures Models.Conforms(Repair(m)) <==> KeptFieldsConform(m)
  {
    var r := Repair(m);
    RepairKeys(m);
    DefaultKeySets();
    assert Models.RequiredResponseKeys <= r.Keys;
    if KeptFieldsConform(m) {
      forall k | k in r
        ensures Models.FieldConforms(k, r[k])
      {
        RepairFieldConforms(m, k);
      }
    }
    if Models.Conforms(r) {
      forall k | k in m && KeepsOwnValue(m, k)
        ensures Models.FieldConforms(k, m[k])
      {
        RepairFieldConforms(m, k);
      }
    }
  }

  /** A present but wrongly typed field survives repair, and the result fails the schema. */
  lemma WrongTypeSurvivesRepair(m: map<string, Json>, s: string)
    requires "legal_issues" in m && m["legal_issues"] == JStr(s)
    ensures Repair(m)["legal_issues"] == JStr(s) && !Models.Conforms(Repair(m))
  {
    DefaultKeySets();
    RepairFillsOnlyAbsentKeys(m, "legal_issues");
    assert !Models.FieldConforms("legal_issues", m["legal_issues"]);
    RepairConformsIff(m);
  }

  /** An empty list is kept as it is: repair does not refill present but empty fields. */
  lemma EmptyListSurvivesRepair(m: map<string, Json>)
    requires "next_steps" in m && m["next_steps"] == JArr([])
    ensures Repair(m)["next_steps"] == JArr([])
  {
    DefaultKeySets();
    RepairFillsOnlyAbsentKeys(m, "next_steps");
  }

  /** The confidence-score rule on the values the model is known to send. */
  lemma CoerceScoreExamples()
    ensures CoerceScore(JNum(7.9)) == JNum(7.0)
    ensures CoerceScore(JNum(10.0)) == JNum(10.0)
    ensures CoerceScore(JNum(15.0)) == JNum(6.0)
    ensures CoerceScore(JNum(0.5)) == JNum(6.0)
    ensures CoerceScore(JStr("7")) == JNum(6.0)
    ensures CoerceScore(JBool(true)) == JNum(1.0)
    ensures CoerceScore(JBool(false)) == JNum(6.0)
    ensures CoerceScore(JNull) == JNum(6.0)
  {
    assert (7.9).Floor == 7;
  }
}

=== FILE: cases.dfy ===
/**
  The pure decisions of the case routes: the record a new analysis stores, the update diff and
  its re-analysis trigger, the listing filter and the upload checks. Database reads and writes
  are I/O: what a read returned is an input, what would be written is the output.
 */
module Cases {
  import opened Wrappers
  import opened JsonValues
  import Models
  import AiService
  import Database
  import Report

  /** The HTTP errors the routes raise. */
  datatype HttpError = NotFound | BadRequest | PayloadTooLarge | ServerError {
    function Status(): nat {
      match this
      case NotFound => 404
      case BadRequest => 400
      case PayloadTooLarge => 413
      case ServerError => 500
    }
  }

  /** A stored case as a read returned it: `None`, or an empty row, means "not found". */
  predicate Found(stored: Option<map<string, Json>>) {
    stored.Some? && stored.value != map[]
  }

  /** The score the routes store when the analysis carries none. */
  const RecordScoreDefault: Json := JNum(5.0)

  // ---------------------------------------------------------------------------------------
  // Analysing a new case
  // ---------------------------------------------------------------------------------------

  /** The keys of the record `analyze_case` hands to the database. */
  const RecordKeys: set<string> :=
    {"user_id", "title", "case_text", "dispute_type", "ai_response", "confidence_score", "status"}

  /**
    The record `analyze_case` builds from a validated request and the analysis: a new case is
    active, its dispute type is stored as its string value, and its score is copied from the
    analysis (5 when the analysis has none).
   */
  function CaseRecord(userId: string, c: Models.CaseCreate, aiResponse: map<string, Json>): (r: map<string, Json>)
    ensures r.Keys == RecordKeys
    ensures r["status"] == JStr("active")
    ensures r["user_id"] == JStr(userId) && r["title"] == JStr(c.title) && r["case_text"] == JStr(c.caseText)
    ensures r["dispute_type"].JStr? && Models.ParseDisputeType(r["dispute_type"].s) == Some(c.disputeType)
    ensures r["ai_response"] == JObj(aiResponse)
    ensures "confidence_score" in aiResponse ==> r["confidence_score"] == aiResponse["confidence_score"]
    ensures "confidence_score" !in aiResponse ==> r["confidence_score"] == RecordScoreDefault
  {
    Models.DisputeTypeRoundTrip(c.disputeType);
    map[
      "user_id" := JStr(userId),
      "title" := JStr(c.title),
      "case_text" := JStr(c.caseText),
      "dispute_type" := JStr(c.disputeType.Value()),
      "ai_response" := JObj(aiResponse),
      "confidence_score" := GetOr(aiResponse, "confidence_score", RecordScoreDefault),
      "status" := JStr("active")]
  }

  /**
    A normalised analysis always carries a score, so the default of 5 is never used and the stored
    score meets the table's CHECK (an integer in [1, 10]).
   */
  lemma RecordScoreFromAnalysis(userId: string, c: Models.CaseCreate, aiResponse: map<string, Json>)
    requires AiService.IsRepaired(aiResponse)
    ensures CaseRecord(userId, c, aiResponse)["confidence_score"] == aiResponse["confidence_score"]
    ensures AiService.IsScore(CaseRecord(userId, c, aiResponse)["confidence_score"])
  {
    AiService.RepairedScore(aiResponse);
  }

  /**
    The record stored for an analysis: the built record after the database has stamped it. It is
    active and its score is the analysis' own, an integer in [1, 10].
   */
  function StoredRecord(userId: string, c: Models.CaseCreate, aiResponse: map<string, Json>,
                        id: string, createdAt: string, updatedAt: string): (r: map<string, Json>)
    requires AiService.IsRepaired(aiResponse)
    ensures "status" in r && r["status"] == JStr("active")
    ensures "id" in r && r["id"] == JStr(id)
    ensures "confidence_score" in aiResponse && "confidence_score" in r
    ensures r["confidence_score"] == aiResponse["confidence_score"] && AiService.IsScore(r["confidence_score"])
  {
    AiService.RepairedScore(aiResponse);
    RecordScoreFromAnalysis(userId, c, aiResponse);
    var record := CaseRecord(userId, c, aiResponse);
    var created := Database.CreateCase(record, id, createdAt, updatedAt);
    assert created["confidence_score"] == record["confidence_score"];
    created
  }

  /** Whether the reply can be built: its `ai_response` must satisfy the `AIResponse` schema. */
  function ReplyBuilds(aiResponse: map<string, Json>): (b: bool)
    ensures b <==> Models.Conforms(aiResponse)
  {
    Models.ToAIResponseIff(aiResponse);
    Models.ToAIResponse(JObj(aiResponse)).Some?
  }

  /**
    `analyze_case_with_ai` as the routes see it: the analysis of a case text and dispute type, or
    `None` when it raises.
   */
  type Analyser = (string, Models.DisputeType) -> Option<map<string, Json>>

  /** Every record the analyser yields has the shape `_parse_ai_response` guarantees. */
  ghost predicate RepairedAnalyser(analyze: Analyser) {
    forall text, d :: analyze(text, d).Some? ==> AiService.IsRepaired(analyze(text, d).value)
  }

  /** The service's analyser: the model call `ask` followed by the normaliser. */
  function AiAnalyser(ask: string -> Option<string>, decode: string -> Option<Json>): (a: Analyser)
    ensures RepairedAnalyser(a)
    ensures forall text, d :: a(text, d).None? <==>
      ask(AiService.FullPrompt(text, d)).None? || ask(AiService.FullPrompt(text, d)).value == []
  {
    (text, d) => AiService.AnalyzeCase(ask, decode, text, d)
  }

  /** What a route did: the record it stored, if any, and its reply. */
  datatype Outcome = Outcome(stored: Option<map<string, Json>>, reply: Result<map<string, Json>, HttpError>)

  /**
    `analyze_case` end to end: analyse, stamp and store the record, then build the reply. A failed
    analysis stores nothing and replies 500; an analysis that does not satisfy the schema is stored
    all the same and then replies 500.
   */
  function AnalyzeCaseRoute(analyze: Analyser,
                            userId: string, c: Models.CaseCreate,
                            id: string, createdAt: string, updatedAt: string): (o: Outcome)
    requires RepairedAnalyser(analyze)
    ensures o.stored.None? <==> analyze(c.caseText, c.disputeType).None?
    ensures o.stored.None? ==> o.reply == Failure(ServerError)
    ensures o.stored.Some? ==>
      var ai := analyze(c.caseText, c.disputeType).value;
      && "status" in o.stored.value && o.stored.value["status"] == JStr("active")
      && "id" in o.stored.value && o.stored.value["id"] == JStr(id)
      && "confidence_score" in ai && "confidence_score" in o.stored.value
      && o.stored.value["confidence_score"] == ai["confidence_score"]
      && AiService.IsScore(o.stored.value["confidence_score"])
      && (o.reply.Success? <==> Models.Conforms(ai))
    ensures o.reply.Success? ==> o.stored.Some? && o.reply.value == o.stored.value
    ensures o.reply.Failure? ==> o.reply.error == ServerError
  {
    var analysis := analyze(c.caseText, c.disputeType);
    if analysis.None? then Outcome(None, Failure(ServerError))
    else
      var created := StoredRecord(userId, c, analysis.value, id, createdAt, updatedAt);
      Outcome(Some(created), if ReplyBuilds(analysis.value) then Success(created) else Failure(ServerError))
  }

  /** The stored record keeps every field of the built record and adds the three stamps. */
  lemma StoredRecordKeepsFields(userId: string, c: Models.CaseCreate, aiResponse: map<string, Json>,
                                id: string, createdAt: string, updatedAt: string)
    ensures Database.CreateCase(CaseRecord(userId, c, aiResponse), id, createdAt, updatedAt).Keys
      == RecordKeys + {"id", "created_at", "updated_at"}
    ensures forall k :: k in RecordKeys && k != "status" ==>
      Database.CreateCase(CaseRecord(userId, c, aiResponse), id, createdAt, updatedAt)[k]
        == CaseRecord(userId, c, aiResponse)[k]
    ensures Database.CreateCase(CaseRecord(userId, c, aiResponse), id, createdAt, updatedAt)["status"] == JStr("active")
  {
    var record := CaseRecord(userId, c, aiResponse);
    assert record.Keys + Database.StampedKeys == RecordKeys + {"id", "created_at", "updated_at"};
  }

  // ---------------------------------------------------------------------------------------
  // Updating a case
  // ---------------------------------------------------------------------------------------

  /** The keys an update diff may hold before any re-analysis. */
  const UpdatableKeys: set<string> := {"title", "case_text", "dispute_type", "status"}

  /** The keys a re-analysis adds to the diff. */
  const AnalysisKeys: set<string> := {"ai_response", "confidence_score"}

  /** `update_data` as built from the request: the given fields, enum members as their values. */
  function UpdateData(u: Models.CaseUpdate): (r: map<string, Json>)
    ensures r.Keys <= UpdatableKeys
    ensures "title" in r <==> u.title.Some?
    ensures "case_text" in r <==> u.caseText.Some?
    ensures "dispute_type" in r <==> u.disputeType.Some?
    ensures "status" in r <==> u.status.Some?
  {
    var m0: map<string, Json> := map[];
    var m1 := if u.title.Some? then m0["title" := JStr(u.title.value)] else m0;
    var m2 := if u.caseText.Some? then m1["case_text" := JStr(u.caseText.value)] else m1;
    var m3 := if u.disputeType.Some? then m2["dispute_type" := JStr(u.disputeType.value.Value())] else m2;
    if u.status.Some? then m3["status" := JStr(u.status.value.Value())] else m3
  }

  /** A string field of a diff, if present. */
  function ReadString(m: map<string, Json>, k: string): Option<string> {
    if k in m && m[k].JStr? then Some(m[k].s) else None
  }

  /** Reading a diff back as the update it records. */
  function ReadUpdateData(m: map<string, Json>): Models.CaseUpdate {
    Models.CaseUpdate(
      ReadString(m, "title"),
      ReadString(m, "case_text"),
      if ReadString(m, "dispute_type").Some? then Models.ParseDisputeType(ReadString(m, "dispute_type").value) else None,
      if ReadString(m, "status").Some? then Models.ParseCaseStatus(ReadString(m, "status").value) else None)
  }

  /** The diff records the update exactly: reading it back gives the update. */
  lemma UpdateDataRoundTrip(u: Models.CaseUpdate)
    ensures ReadUpdateData(UpdateData(u)) == u
  {
    var r := UpdateData(u);
    if u.title.Some? {
      assert r["title"] == JStr(u.title.value);
    }
    if u.caseText.Some? {
      assert r["case_text"] == JStr(u.caseText.value);
    }
    if u.disputeType.Some? {
      assert r["dispute_type"] == JStr(u.disputeType.value.Value());
      Models.DisputeTypeRoundTrip(u.disputeType.value);
    }
    if u.status.Some? {
      assert r["status"] == JStr(u.status.value.Value());
      Models.CaseStatusRoundTrip(u.status.value);
    }
  }

  /** The route re-analyses exactly when the case text or the dispute type is given. */
  predicate NeedsReanalysis(u: Models.CaseUpdate) {
    u.caseText.Some? || u.disputeType.Some?
  }

  /** Python's `a or b` on an optional text: the given text when it is non-empty. */
  predicate GivenText(t: Option<string>) {
    t.Some? && t.value != []
  }

  /**
    The case text and dispute type a re-analysis runs on: each updated value when given, the stored
    one otherwise. A missing stored case is 404; a stored case without the needed field, or with a
    dispute type outside the enumeration, raises, which the route turns into 500. The stored text
    is formatted into the prompt as Python's `str` would (`render`).
   */
  function ReanalysisInputs(u: Models.CaseUpdate, stored: Option<map<string, Json>>, render: Json -> string)
    : (r: Result<(string, Models.DisputeType), HttpError>)
    ensures !Found(stored) ==> r == Failure(NotFound)
    ensures Found(stored) ==> (r.Success? <==>
      && (GivenText(u.caseText) || "case_text" in stored.value)
      && (u.disputeType.Some? || StoredDisputeType(stored.value).Some?))
    ensures r.Failure? && Found(stored) ==> r.error == ServerError
    ensures r.Success? && GivenText(u.caseText) ==> r.value.0 == u.caseText.value
    ensures r.Success? && !GivenText(u.caseText) ==>
      "case_text" in stored.value && r.value.0 == Report.Show(render, stored.value["case_text"])
    ensures r.Success? && u.disputeType.Some? ==> r.value.1 == u.disputeType.value
    ensures r.Success? && u.disputeType.None? ==>
      "dispute_type" in stored.value && stored.value["dispute_type"] == JStr(r.value.1.Value())
  {
    if !Found(stored) then Failure(NotFound)
    else
      var row := stored.value;
      if !GivenText(u.caseText) && "case_text" !in row then Failure(ServerError)
      else
        var text := if GivenText(u.caseText) then u.caseText.value else Report.Show(render, row["case_text"]);
        match u.disputeType
        case Some(d) => Success((text, d))
        case None =>
          match StoredDisputeType(row)
          case None => Failure(ServerError)
          case Some(d) => Success((text, d))
  }

  /** `DisputeType(row["dispute_type"])`: defined only for a stored enumeration value. */
  function StoredDisputeType(row: map<string, Json>): (r: Option<Models.DisputeType>)
    ensures r.Some? <==> "dispute_type" in row && row["dispute_type"].JStr? && Models.ParseDisputeType(row["dispute_type"].s).Some?
    ensures r.Some? ==> row["dispute_type"] == JStr(r.value.Value())
  {
    if "dispute_type" in row && row["dispute_type"].JStr? then
      var r := Models.ParseDisputeType(row["dispute_type"].s);
      if r.Some? then Models.DisputeTypeRoundTrip(r.value); r else None
    else None
  }

  /** A diff extended by a fresh analysis and its score; the requested fields stay as they are. */
  function WithAnalysis(diff: map<string, Json>, ai: map<string, Json>): (r: map<string, Json>)
    requires diff.Keys <= UpdatableKeys && AiService.IsRepaired(ai)
    ensures r.Keys == diff.Keys + AnalysisKeys
    ensures forall k :: k in diff ==> r[k] == diff[k]
    ensures r["ai_response"] == JObj(ai)
    ensures "confidence_score" in ai && r["confidence_score"] == ai["confidence_score"]
    ensures AiService.IsScore(r["confidence_score"])
  {
    AiService.RepairedScore(ai);
    diff["ai_response" := JObj(ai)]["confidence_score" := GetOr(ai, "confidence_score", RecordScoreDefault)]
  }

  /** The fresh analysis of the re-analysis inputs, when they could be found. */
  function Reanalysis(u: Models.CaseUpdate, stored: Option<map<string, Json>>, render: Json -> string,
                      analyze: Analyser): (r: Option<map<string, Json>>)
    requires RepairedAnalyser(analyze)
    ensures r.Some? ==> AiService.IsRepaired(r.value)
    ensures ReanalysisInputs(u, stored, render).Failure? ==> r.None?
    ensures ReanalysisInputs(u, stored, render).Success? ==>
      var inputs := ReanalysisInputs(u, stored, render).value;
      r == analyze(inputs.0, inputs.1)
  {
    var inputs := ReanalysisInputs(u, stored, render);
    if inputs.Success? then analyze(inputs.value.0, inputs.value.1) else None
  }

  /**
    The diff `update_case` writes: the given fields, plus the fresh analysis and its score when
    the case text or the dispute type changed. Only that re-analysis reads the stored case.
   */
  function PlanUpdate(u: Models.CaseUpdate, stored: Option<map<string, Json>>, render: Json -> string,
                      analyze: Analyser)
    : (r: Result<map<string, Json>, HttpError>)
    requires RepairedAnalyser(analyze)
    ensures !NeedsReanalysis(u) ==> r == Success(UpdateData(u))
    ensures NeedsReanalysis(u) ==> (r.Success? <==> Reanalysis(u, stored, render, analyze).Some?)
    ensures NeedsReanalysis(u) && r.Failure? ==>
      r.error == (if ReanalysisInputs(u, stored, render).Failure? then ReanalysisInputs(u, stored, render).error else ServerError)
    ensures r.Success? ==> r.value.Keys == UpdateData(u).Keys + (if NeedsReanalysis(u) then AnalysisKeys else {})
    ensures r.Success? ==> forall k :: k in UpdateData(u) ==> r.value[k] == UpdateData(u)[k]
    ensures r.Success? && NeedsReanalysis(u) ==>
      && "ai_response" in r.value && "confidence_score" in r.value
      && r.value["ai_response"] == JObj(Reanalysis(u, stored, render, analyze).value)
      && AiService.IsScore(r.value["confidence_score"])
  {
    var diff := UpdateData(u);
    if !NeedsReanalysis(u) then Success(diff)
    else Reanalysed(diff, ReanalysisInputs(u, stored, render), Reanalysis(u, stored, render, analyze))
  }

  /** The re-analysis step: a failure to find the inputs or to analyse them, or the extended diff. */
  function Reanalysed(diff: map<string, Json>, inputs: Result<(string, Models.DisputeType), HttpError>,
                      analysis: Option<map<string, Json>>): (r: Result<map<string, Json>, HttpError>)
    requires diff.Keys <= UpdatableKeys
    requires analysis.Some? ==> AiService.IsRepaired(analysis.value)
    ensures r.Success? <==> inputs.Success? && analysis.Some?
    ensures r.Failure? ==> r.error == (if inputs.Failure? then inputs.error else ServerError)
    ensures r.Success? ==> r.value.Keys == diff.Keys + AnalysisKeys
    ensures r.Success? ==> forall k :: k in diff ==> r.value[k] == diff[k]
    ensures r.Success? ==>
      && "ai_response" in r.value && "confidence_score" in r.value
      && r.value["ai_response"] == JObj(analysis.value)
      && AiService.IsScore(r.value["confidence_score"])
  {
    if inputs.Failure? then Failure(inputs.error)
    else if analysis.None? then Failure(ServerError)
    else Success(WithAnalysis(diff, analysis.value))
  }

  /**
    The re-analysis runs on the updated text and type when both are given, whatever is stored, as
    long as the case exists.
   */
  lemma ReanalysisPrefersUpdate(u: Models.CaseUpdate, stored: Option<map<string, Json>>, render: Json -> string,
                                analyze: Analyser)
    requires RepairedAnalyser(analyze)
    requires GivenText(u.caseText) && u.disputeType.Some? && Found(stored)
    ensures PlanUpdate(u, stored, render, analyze).Success? <==>
      analyze(u.caseText.value, u.disputeType.value).Some?
    ensures PlanUpdate(u, stored, render, analyze).Success? ==>
      PlanUpdate(u, stored, render, analyze).value["ai_response"]
        == JObj(analyze(u.caseText.value, u.disputeType.value).value)
  {
    var inputs := ReanalysisInputs(u, stored, render);
    assert inputs == Success((u.caseText.value, u.disputeType.value));
  }

  // ---------------------------------------------------------------------------------------
  // Listing
  // ---------------------------------------------------------------------------------------

  /** Whether a listed case has the requested dispute type (`case.get("dispute_type") == value`). */
  predicate HasType(c: map<string, Json>, d: Models.DisputeType) {
    "dispute_type" in c && c["dispute_type"] == JStr(d.Value())
  }

  /** The cases of type `d`, in their listed order. */
  function Keep(cases: seq<map<string, Json>>, d: Models.DisputeType): (r: seq<map<string, Json>>)
    ensures |r| <= |cases|
    ensures forall i :: 0 <= i < |r| ==> HasType(r[i], d)
  {
    if cases == [] then []
    else (if HasType(cases[0], d) then [cases[0]] else []) + Keep(cases[1..], d)
  }

  /**
    The listing filter: no requested type leaves the list alone (an enumeration member is always
    truthy, so any requested type filters).
   */
  function FilterByType(cases: seq<map<string, Json>>, d: Option<Models.DisputeType>): (r: seq<map<string, Json>>)
    ensures d.None? ==> r == cases
    ensures d.Some? ==> forall i :: 0 <= i < |r| ==> HasType(r[i], d.value)
  {
    match d
    case None => cases
    case Some(t) => Keep(cases, t)
  }

  /** The filter keeps exactly the listed cases of the requested type. */
  lemma {:induction false} KeepMembers(cases: seq<map<string, Json>>, d: Models.DisputeType, c: map<string, Json>)
    ensures c in Keep(cases, d) <==> c in cases && HasType(c, d)
    decreases |cases|
  {
    if cases != [] {
      KeepMembers(cases[1..], d, c);
      assert cases == [cases[0]] + cases[1..];
    }
  }

  /** Filtering distributes over concatenation, so it keeps the listed order. */
  lemma {:induction false} KeepAppend(xs: seq<map<string, Json>>, ys: seq<map<string, Json>>, d: Models.DisputeType)
    ensures Keep(xs + ys, d) == Keep(xs, d) + Keep(ys, d)
    decreases |xs|
  {
    if xs == [] {
      assert xs + ys == ys;
    } else {
      assert (xs + ys)[1..] == xs[1..] + ys;
      KeepAppend(xs[1..], ys, d);
    }
  }

  /** A list of cases all of the requested type passes the filter unchanged. */
  lemma {:induction false} KeepAllOfType(cases: seq<map<string, Json>>, d: Models.DisputeType)
    requires forall i :: 0 <= i < |cases| ==> HasType(cases[i], d)
    ensures Keep(cases, d) == cases
    decreases |cases|
  {
    if cases != [] {
      KeepAllOfType(cases[1..], d);
    }
  }

  /** Filtering twice by the same type is filtering once. */
  lemma FilterIdempotent(cases: seq<map<string, Json>>, d: Option<Models.DisputeType>)
    ensures FilterByType(FilterByType(cases, d), d) == FilterByType(cases, d)
  {
    if d.Some? {
      KeepAllOfType(Keep(cases, d.value), d.value);
    }
  }

  // ---------------------------------------------------------------------------------------
  // Uploading a document
  // ---------------------------------------------------------------------------------------

  /** The upload size limit, 10 MiB. */
  const MaxUploadBytes: int := 10 * 1024 * 1024

  /** The accepted content types. */
  const AllowedContentTypes: set<string> := {
    "application/pdf",
    "image/jpeg",
    "image/png",
    "application/msword",
    "application/vnd.openxmlformats-officedocument.wordprocessingml.document"
  }

  /** What an accepted upload echoes back. */
  datatype Receipt = Receipt(filename: Option<string>, size: int, contentType: string)

  /**
    `upload_case_document`'s checks, in order: the case must exist (404), the size must not exceed
    10 MiB (413; an unknown size cannot be compared and raises, hence 500), and the content type
    must be one of the allowed five (400; an unknown type is not among them).
   */
  function ValidateUpload(stored: Option<map<string, Json>>, filename: Option<string>,
                          size: Option<int>, contentType: Option<string>): (r: Result<Receipt, HttpError>)
    ensures r.Success? <==>
      Found(stored) && size.Some? && size.value <= MaxUploadBytes
      && contentType.Some? && contentType.value in AllowedContentTypes
    ensures r.Success? ==> r.value == Receipt(filename, size.value, contentType.value)
    ensures !Found(stored) ==> r == Failure(NotFound)
    ensures Found(stored) && size.None? ==> r == Failure(ServerError)
    ensures Found(stored) && size.Some? && size.value > MaxUploadBytes ==> r == Failure(PayloadTooLarge)
    ensures Found(stored) && size.Some? && size.value <= MaxUploadBytes && !r.Success? ==> r == Failure(BadRequest)
  {
    if !Found(stored) then Failure(NotFound)
    else if size.None? then Failure(ServerError)
    else if size.value > MaxUploadBytes then Failure(PayloadTooLarge)
    else if contentType.None? || contentType.value !in AllowedContentTypes then Failure(BadRequest)
    else Success(Receipt(filename, size.value, contentType.value))
  }

  /** The size is checked before the type: an oversized file is 413 whatever its type. */
  lemma SizeCheckedBeforeType(stored: Option<map<string, Json>>, filename: Option<string>, size: int,
                              t1: Option<string>, t2: Option<string>)
    requires Found(stored) && size > MaxUploadBytes
    ensures ValidateUpload(stored, filename, Some(size), t1) == ValidateUpload(stored, filename, Some(size), t2)
    ensures ValidateUpload(stored, filename, Some(size), t1).Failure?
  {
  }

  /** A file of exactly 10 MiB with an allowed type is accepted; one byte more is not. */
  lemma LimitIsInclusive(stored: Option<map<string, Json>>, filename: Option<string>, t: string)
    requires Found(stored) && t in AllowedContentTypes
    ensures ValidateUpload(stored, filename, Some(10485760), Some(t)).Success?
    ensures ValidateUpload(stored, filename, Some(10485761), Some(t)) == Failure(PayloadTooLarge)
  {
  }
}

=== FILE: database.dfy ===
/**
  The pure parts of the data layer: the field stamping done when a case is inserted and the
  statistics aggregated over a user's active cases. Queries themselves are I/O and are not
  modelled: the rows a query returned, or its failure, are inputs.
 */
module Database {
  import opened Wrappers
  import opened JsonValues

  // ---------------------------------------------------------------------------------------
  // Inserting a case
  // ---------------------------------------------------------------------------------------

  /** The keys `create_case` always writes. */
  const StampedKeys: set<string> := {"id", "created_at", "updated_at", "status"}

  /**
    `create_case` before the insert: a fresh id and two timestamps overwrite whatever was there,
    and the status defaults to "active". The id and the timestamps are inputs.
   */
  function CreateCase(data: map<string, Json>, id: string, createdAt: string, updatedAt: string): (r: map<string, Json>)
    ensures r.Keys == data.Keys + StampedKeys
    ensures r["id"] == JStr(id) && r["created_at"] == JStr(createdAt) && r["updated_at"] == JStr(updatedAt)
    ensures "status" in data ==> r["status"] == data["status"]
    ensures "status" !in data ==> r["status"] == JStr("active")
    ensures forall k :: k in data && k !in StampedKeys ==> r[k] == data[k]
  {
    data["id" := JStr(id)]["created_at" := JStr(createdAt)]["updated_at" := JStr(updatedAt)]
      ["status" := GetOr(data, "status", JStr("active"))]
  }

  /** Inserting a record again only replaces the stamps: the latest id and times win. */
  lemma CreateCaseRestamps(data: map<string, Json>, id1: string, c1: string, u1: string,
                           id2: string, c2: string, u2: string)
    ensures CreateCase(CreateCase(data, id1, c1, u1), id2, c2, u2) == CreateCase(data, id2, c2, u2)
  {
  }

  // ---------------------------------------------------------------------------------------
  // Statistics
  // ---------------------------------------------------------------------------------------

  /**
    A row of the statistics query. `None` stands for a missing key (or a `null` score); the
    dispute-type column is declared NOT NULL, so a present dispute type is always a string.
   */
  datatype Row = Row(disputeType: Option<string>, confidenceScore: Option<int>)

  datatype Stats = Stats(totalCases: nat, casesByType: map<string, nat>, averageConfidence: real)

  /** The bucket a row is counted in: its dispute type, or "other" when it has none. */
  function TypeKey(row: Row): string {
    row.disputeType.GetOr("other")
  }

  /** Whether a row's score enters the average: present and non-zero (Python truthiness). */
  predicate HasScore(row: Row) {
    row.confidenceScore.Some? && row.confidenceScore.value != 0
  }

  /** The number of rows counted under `key`. */
  function CountType(rows: seq<Row>, key: string): nat {
    if rows == [] then 0 else (if TypeKey(rows[0]) == key then 1 else 0) + CountType(rows[1..], key)
  }

  /** The scores that enter the average, in row order. */
  function Scores(rows: seq<Row>): (ss: seq<int>)
    ensures |ss| <= |rows|
  {
    if rows == [] then []
    else (if HasScore(rows[0]) then [rows[0].confidenceScore.value] else []) + Scores(rows[1..])
  }

  function Sum(xs: seq<int>): int {
    if xs == [] then 0 else xs[0] + Sum(xs[1..])
  }

  /** The arithmetic mean, 0 for no scores. The source's rounding to two places is not modelled. */
  function Mean(xs: seq<int>): real {
    if xs == [] then 0.0 else Sum(xs) as real / |xs| as real
  }

  /** The sum of a histogram's counts. */
  ghost function MapSum(m: map<string, nat>): nat
    decreases |m.Keys|
  {
    if m == map[] then 0
    else
      var k :| k in m;
      m[k] + MapSum(m - {k})
  }

  lemma {:induction false} MapSumRemove(m: map<string, nat>, k: string)
    requires k in m
    ensures MapSum(m) == m[k] + MapSum(m - {k})
    decreases |m.Keys|
  {
    var k' :| k' in m && MapSum(m) == m[k'] + MapSum(m - {k'});
    if k' != k {
      var m1 := m - {k'};
      var m2 := m - {k};
      MapSumRemove(m1, k);
      MapSumRemove(m2, k');
      assert m1 - {k} == m2 - {k'};
    }
  }

  lemma MapSumUpdate(m: map<string, nat>, k: string, v: nat)
    ensures MapSum(m[k := v]) == MapSum(m) - (if k in m then m[k] else 0) + v
  {
    MapSumRemove(m[k := v], k);
    assert m[k := v] - {k} == m - {k};
    if k in m {
      MapSumRemove(m, k);
    } else {
      assert m - {k} == m;
    }
  }

  lemma {:induction false} CountTypeAppend(rows: seq<Row>, row: Row, key: string)
    ensures CountType(rows + [row], key) == CountType(rows, key) + (if TypeKey(row) == key then 1 else 0)
    decreases |rows|
  {
    if rows == [] {
      assert rows + [row] == [row];
    } else {
      assert (rows + [row])[1..] == rows[1..] + [row];
      CountTypeAppend(rows[1..], row, key);
    }
  }

  lemma {:induction false} ScoresAppend(rows: seq<Row>, row: Row)
    ensures Scores(rows + [row]) == Scores(rows) + (if HasScore(row) then [row.confidenceScore.value] else [])
    decreases |rows|
  {
    if rows == [] {
      assert rows + [row] == [row];
    } else {
      assert (rows + [row])[1..] == rows[1..] + [row];
      ScoresAppend(rows[1..], row);
    }
  }

  lemma {:induction false} SumAppend(xs: seq<int>, x: int)
    ensures Sum(xs + [x]) == Sum(xs) + x
    decreases |xs|
  {
    if xs == [] {
      assert xs + [x] == [x];
    } else {
      assert (xs + [x])[1..] == xs[1..] + [x];
      SumAppend(xs[1..], x);
    }
  }

  /** The buckets the rows fall into. */
  function TypeKeys(rows: seq<Row>): set<string> {
    if rows == [] then {} else {TypeKey(rows[0])} + TypeKeys(rows[1..])
  }

  lemma {:induction false} TypeKeysAppend(rows: seq<Row>, row: Row)
    ensures TypeKeys(rows + [row]) == TypeKeys(rows) + {TypeKey(row)}
    decreases |rows|
  {
    if rows == [] {
      assert rows + [row] == [row];
    } else {
      assert (rows + [row])[1..] == rows[1..] + [row];
      TypeKeysAppend(rows[1..], row);
    }
  }

  /** A bucket exists exactly for the types some row carries. */
  lemma {:induction false} TypeKeysMembers(rows: seq<Row>, k: string)
    ensures k in TypeKeys(rows) <==> exists j :: 0 <= j < |rows| && TypeKey(rows[j]) == k
    decreases |rows|
  {
    if rows != [] {
      TypeKeysMembers(rows[1..], k);
      if exists j :: 0 <= j < |rows[1..]| && TypeKey(rows[1..][j]) == k {
        var j :| 0 <= j < |rows[1..]| && TypeKey(rows[1..][j]) == k;
        assert TypeKey(rows[j + 1]) == k;
      }
      if exists j :: 0 <= j < |rows| && TypeKey(rows[j]) == k {
        var j :| 0 <= j < |rows| && TypeKey(rows[j]) == k;
        if j > 0 {
          assert TypeKey(rows[1..][j - 1]) == k;
        }
      }
    }
  }

  lemma {:induction false} CountTypeOfAbsent(rows: seq<Row>, key: string)
    requires key !in TypeKeys(rows)
    ensures CountType(rows, key) == 0
    decreases |rows|
  {
    if rows != [] {
      CountTypeOfAbsent(rows[1..], key);
    }
  }

  /** Counting one more row under `key`. */
  function Bump(m: map<string, nat>, key: string): map<string, nat> {
    m[key := (if key in m then m[key] else 0) + 1]
  }

  /** `byType` is the per-type histogram of `rows`, and its counts add up to the row count. */
  ghost predicate HistogramOf(byType: map<string, nat>, rows: seq<Row>) {
    && byType.Keys == TypeKeys(rows)
    && (forall k :: k in byType ==> byType[k] == CountType(rows, k))
    && MapSum(byType) == |rows|
  }

  lemma HistogramStep(byType: map<string, nat>, rows: seq<Row>, row: Row)
    requires HistogramOf(byType, rows)
    ensures HistogramOf(Bump(byType, TypeKey(row)), rows + [row])
  {
    var key := TypeKey(row);
    var m' := Bump(byType, key);
    TypeKeysAppend(rows, row);
    if key !in byType {
      CountTypeOfAbsent(rows, key);
    }
    MapSumUpdate(byType, key, (if key in byType then byType[key] else 0) + 1);
    forall k | k in m'
      ensures m'[k] == CountType(rows + [row], k)
    {
      CountTypeAppend(rows, row, k);
    }
  }

  /**
    `get_user_stats`: counts the rows, buckets them by dispute type and averages the truthy
    scores. When the query fails (`fetched` is `None`) the result is all zeros.
   */
  method GetUserStats(fetched: Option<seq<Row>>) returns (stats: Stats)
    ensures fetched.None? ==> stats == Stats(0, map[], 0.0)
    ensures fetched.Some? ==> stats.totalCases == |fetched.value|
    ensures fetched.Some? ==> HistogramOf(stats.casesByType, fetched.value)
    ensures fetched.Some? ==> MapSum(stats.casesByType) == stats.totalCases
    ensures fetched.Some? ==> stats.averageConfidence == Mean(Scores(fetched.value))
  {
    if fetched.None? {
      return Stats(0, map[], 0.0);
    }
    var rows := fetched.value;
    var byType: map<string, nat> := map[];
    var total := 0;
    var count := 0;
    var i := 0;
    while i < |rows|
      invariant 0 <= i <= |rows|
      invariant HistogramOf(byType, rows[..i])
      invariant total == Sum(Scores(rows[..i])) && count == |Scores(rows[..i])|
    {
      var row := rows[i];
      assert rows[..i + 1] == rows[..i] + [row];
      HistogramStep(byType, rows[..i], row);
      byType := Bump(byType, TypeKey(row));
      ScoresAppend(rows[..i], row);
      if !HasScore(row) {
        assert Scores(rows[..i] + [row]) == Scores(rows[..i]) + [];
        assert Scores(rows[..i] + [row]) == Scores(rows[..i]);
      } else {
        SumAppend(Scores(rows[..i]), row.confidenceScore.value);
        total := total + row.confidenceScore.value;
        count := count + 1;
      }
      i := i + 1;
    }
    assert rows[..i] == rows;
    var average := if count == 0 then 0.0 else total as real / count as real;
    stats := Stats(|rows|, byType, average);
  }

  /** Scores that each lie in [1, 10] have a mean in [1, 10]. */
  lemma {:induction false} SumBounds(xs: seq<int>)
    requires forall i :: 0 <= i < |xs| ==> 1 <= xs[i] <= 10
    ensures |xs| <= Sum(xs) <= 10 * |xs|
    decreases |xs|
  {
    if xs != [] {
      SumBounds(xs[1..]);
    }
  }

  /** When every stored score satisfies the table's CHECK (1..10), so does a non-empty average. */
  lemma MeanWithinScoreRange(xs: seq<int>)
    requires xs != []
    requires forall i :: 0 <= i < |xs| ==> 1 <= xs[i] <= 10
    ensures 1.0 <= Mean(xs) <= 10.0
  {
    SumBounds(xs);
    QuotientBounds(Sum(xs) as real, |xs| as real);
  }

  lemma QuotientBounds(s: real, n: real)
    requires n > 0.0 && n <= s <= 10.0 * n
    ensures 1.0 <= s / n <= 10.0
  {
    var q := s / n;
    assert s == q * n;
    if q < 1.0 {
      ProductGrows(1.0 - q, n);
      assert false;
    }
    if q > 10.0 {
      ProductGrows(q - 10.0, n);
      assert false;
    }
  }

  lemma ProductGrows(d: real, n: real)
    requires d > 0.0 && n > 0.0
    ensures d * n > 0.0
  {
  }
}

=== FILE: json_values.dfy ===
/**
  Decoded JSON values, as Python's `json.loads` hands them to the backend, together with the
  Python notions the backend applies to them: truthiness, `dict.get` with a default, and the
  `isinstance(x, (int, float))` test under which a bool counts as a number.
 */
module JsonValues {
  import opened Wrappers

  /** A decoded JSON value. Objects are maps: key order is not modelled. */
  datatype Json =
    | JNull
    | JBool(b: bool)
    | JNum(n: real)
    | JStr(s: string)
    | JArr(items: seq<Json>)
    | JObj(fields: map<string, Json>)

  /** Python truthiness of a decoded value. */
  predicate Truthy(j: Json) {
    match j
    case JNull => false
    case JBool(b) => b
    case JNum(n) => n != 0.0
    case JStr(s) => s != []
    case JArr(a) => a != []
    case JObj(m) => m != map[]
  }

  /** `d.get(k, default)` on a Python dict. */
  function GetOr(m: map<string, Json>, k: string, default: Json): Json {
    if k in m then m[k] else default
  }

  /**
    The numeric value of `j` when `isinstance(j, (int, float))` holds. Python's bool is a
    subclass of int, so `true` reads as 1 and `false` as 0.
   */
  function NumericValue(j: Json): (r: Option<real>)
    ensures r.Some? <==> (j.JNum? || j.JBool?)
    ensures j.JNum? ==> r == Some(j.n)
    ensures j == JBool(true) ==> r == Some(1.0)
    ensures j == JBool(false) ==> r == Some(0.0)
  {
    match j
    case JNum(n) => Some(n)
    case JBool(b) => Some(if b then 1.0 else 0.0)
    case _ => None
  }

  /** The JSON array whose elements are the given strings, in order. */
  function Strings(xs: seq<string>): (r: Json)
    ensures r.JArr? && |r.items| == |xs|
    ensures forall i :: 0 <= i < |xs| ==> r.items[i] == JStr(xs[i])
  {
    JArr(seq(|xs|, i requires 0 <= i < |xs| => JStr(xs[i])))
  }
}

=== FILE: models.dfy ===
/**
  The request and response shapes of the property-law backend: the closed dispute-type and
  case-status enumerations, the field constraints and validators of the case models, and the
  `AIResponse` schema every stored analysis is read back through.
 */
module Models {
  import opened Wrappers
  import opened Text
  import opened JsonValues

  // ---------------------------------------------------------------------------------------
  // Enumerations
  // ---------------------------------------------------------------------------------------

  datatype DisputeType = Inheritance | Boundary | Mutation | Tax | BbmpBda | Other {
    /** The enum member's string value. */
    function Value(): string {
      match this
      case Inheritance => "inheritance"
      case Boundary => "boundary"
      case Mutation => "mutation"
      case Tax => "tax"
      case BbmpBda => "bbmp_bda"
      case Other => "other"
    }
  }

  /** `DisputeType(s)`: the member whose value is `s`, or the `ValueError` Python raises. */
  function ParseDisputeType(s: string): (r: Option<DisputeType>)
    ensures r.Some? ==> r.value.Value() == s
    ensures r.None? <==> s !in {"inheritance", "boundary", "mutation", "tax", "bbmp_bda", "other"}
  {
    if s == "inheritance" then Some(Inheritance)
    else if s == "boundary" then Some(Boundary)
    else if s == "mutation" then Some(Mutation)
    else if s == "tax" then Some(Tax)
    else if s == "bbmp_bda" then Some(BbmpBda)
    else if s == "other" then Some(Other)
    else None
  }

  /** Every dispute type reads back from its value, so the enumeration is closed and injective. */
  lemma DisputeTypeRoundTrip(d: DisputeType)
    ensures ParseDisputeType(d.Value()) == Some(d)
  {
  }

  datatype CaseStatus = Active | Archived | Deleted {
    function Value(): string {
      match this
      case Active => "active"
      case Archived => "archived"
      case Deleted => "deleted"
    }
  }

  /** `CaseStatus(s)`: the member whose value is `s`, or `None` when Python raises. */
  function ParseCaseStatus(s: string): (r: Option<CaseStatus>)
    ensures r.Some? ==> r.value.Value() == s
    ensures r.None? <==> s !in {"active", "archived", "deleted"}
  {
    if s == "active" then Some(Active)
    else if s == "archived" then Some(Archived)
    else if s == "deleted" then Some(Deleted)
    else None
  }

  lemma CaseStatusRoundTrip(c: CaseStatus)
    ensures ParseCaseStatus(c.Value()) == Some(c)
  {
  }

  // ---------------------------------------------------------------------------------------
  // Case models and their validators
  // ---------------------------------------------------------------------------------------

  const TitleMin: nat := 5
  const TitleMax: nat := 500
  const CaseTextMin: nat := 50
  const CaseTextMax: nat := 10000

  /** The `Field(min_length=5, max_length=500)` constraint on a title. */
  predicate TitleInBounds(title: string) {
    TitleMin <= |title| <= TitleMax
  }

  /** The `Field(min_length=50, max_length=10000)` constraint on a case text. */
  predicate CaseTextInBounds(text: string) {
    CaseTextMin <= |text| <= CaseTextMax
  }

  /**
    `CaseBase.validate_case_text`: the stripped text, provided it still has at least 50
    characters; `None` stands for the `ValueError`.
   */
  function ValidateCaseText(v: string): (r: Option<string>)
    ensures r.Some? <==> |Strip(v)| >= CaseTextMin
    ensures r.Some? ==> r.value == Strip(v)
    ensures r.Some? ==> |r.value| >= CaseTextMin && Trimmed(r.value) && |r.value| <= |v|
  {
    var t := Strip(v);
    if |t| < CaseTextMin then None else Some(t)
  }

  /** Validating an accepted case text again returns it unchanged. */
  lemma ValidateCaseTextIdempotent(v: string)
    requires ValidateCaseText(v).Some?
    ensures ValidateCaseText(ValidateCaseText(v).value) == ValidateCaseText(v)
  {
    StripIdempotent(v);
  }

  /**
    `CaseAnalysisRequest.validate_case_text`: the stripped text, provided it splits into at
    least 20 whitespace-separated words.
   */
  function ValidateAnalysisText(v: string): (r: Option<string>)
    ensures r.Some? <==> |Words(Strip(v))| >= 20
    ensures r.Some? ==> r.value == Strip(v)
    ensures r.Some? ==> Trimmed(r.value) && |Words(r.value)| >= 20
  {
    var t := Strip(v);
    if |Words(t)| < 20 then None else Some(t)
  }

  /** Validating an accepted analysis text again returns it unchanged. */
  lemma ValidateAnalysisTextIdempotent(v: string)
    requires ValidateAnalysisText(v).Some?
    ensures ValidateAnalysisText(ValidateAnalysisText(v).value) == ValidateAnalysisText(v)
  {
    StripIdempotent(v);
  }

  /** A validated `CaseAnalysisRequest`: stripped case text and dispute type. */
  datatype AnalysisRequest = AnalysisRequest(caseText: string, disputeType: DisputeType)

  /**
    Validation of a `CaseAnalysisRequest` body: the length bounds on the raw case text, then the
    20-word validator, then the dispute-type enumeration.
   */
  function ValidateAnalysisRequest(caseText: string, disputeType: string): (r: Option<AnalysisRequest>)
    ensures r.Some? <==>
      && CaseTextInBounds(caseText)
      && |Words(Strip(caseText))| >= 20
      && ParseDisputeType(disputeType).Some?
    ensures r.Some? ==>
      && r.value.caseText == Strip(caseText)
      && |r.value.caseText| <= CaseTextMax
      && r.value.disputeType.Value() == disputeType
  {
    if !CaseTextInBounds(caseText) then None
    else
      var text :- ValidateAnalysisText(caseText);
      var d :- ParseDisputeType(disputeType);
      Some(AnalysisRequest(text, d))
  }

  /**
    An accepted request passes validation again, unchanged, whenever its stripped text still
    meets the 50-character minimum; the bounds apply to the raw text, so stripping can take a
    20-word text below it.
   */
  lemma AnalysisRequestRevalidates(caseText: string, disputeType: string)
    requires ValidateAnalysisRequest(caseText, disputeType).Some?
    requires |Strip(caseText)| >= CaseTextMin
    ensures var a := ValidateAnalysisRequest(caseText, disputeType).value;
      ValidateAnalysisRequest(a.caseText, a.disputeType.Value()) == Some(a)
  {
    var a := ValidateAnalysisRequest(caseText, disputeType).value;
    var text := Strip(caseText);
    assert CaseTextInBounds(text);
    StripIdempotent(caseText);
    assert ValidateAnalysisText(text) == Some(text);
    DisputeTypeRoundTrip(a.disputeType);
  }

  /** A validated `CaseCreate`: title, stripped case text and dispute type. */
  datatype CaseCreate = CaseCreate(title: string, caseText: string, disputeType: DisputeType)

  /**
    Validation of a `CaseCreate` body: the field constraints on the raw values, then the
    case-text validator, then the dispute-type enumeration.
   */
  function ValidateCaseCreate(title: string, caseText: string, disputeType: string): (r: Option<CaseCreate>)
    ensures r.Some? <==>
      && TitleInBounds(title)
      && CaseTextInBounds(caseText)
      && |Strip(caseText)| >= CaseTextMin
      && ParseDisputeType(disputeType).Some?
    ensures r.Some? ==>
      && r.value.title == title
      && r.value.caseText == Strip(caseText)
      && CaseTextMin <= |r.value.caseText| <= CaseTextMax
      && r.value.disputeType.Value() == disputeType
  {
    if !TitleInBounds(title) || !CaseTextInBounds(caseText) then None
    else
      var text :- ValidateCaseText(caseText);
      var d :- ParseDisputeType(disputeType);
      Some(CaseCreate(title, text, d))
  }

  /** An accepted `CaseCreate` passes validation again and comes back unchanged. */
  lemma CaseCreateRevalidates(title: string, caseText: string, disputeType: string)
    requires ValidateCaseCreate(title, caseText, disputeType).Some?
    ensures var c := ValidateCaseCreate(title, caseText, disputeType).value;
      ValidateCaseCreate(c.title, c.caseText, c.disputeType.Value()) == Some(c)
  {
    var c := ValidateCaseCreate(title, caseText, disputeType).value;
    StrippedTextRevalidates(caseText);
    DisputeTypeRoundTrip(c.disputeType);
  }

  lemma StrippedTextRevalidates(v: string)
    requires CaseTextInBounds(v) && |Strip(v)| >= CaseTextMin
    ensures CaseTextInBounds(Strip(v)) && ValidateCaseText(Strip(v)) == Some(Strip(v))
  {
    var t := Strip(v);
    StripIdempotent(v);
    TrimmedTextValidates(t);
  }

  lemma TrimmedTextValidates(t: string)
    requires Strip(t) == t && |t| >= CaseTextMin
    ensures ValidateCaseText(t) == Some(t)
  {
  }

  /** A validated `CaseUpdate`: every field optional. */
  datatype CaseUpdate = CaseUpdate(
    title: Option<string>,
    caseText: Option<string>,
    disputeType: Option<DisputeType>,
    status: Option<CaseStatus>)

  /**
    Validation of a `CaseUpdate` body: the same length bounds as `CaseCreate` on the fields that
    are given, no case-text validator (the text is kept as sent), closed enumerations.
   */
  function ValidateCaseUpdate(
    title: Option<string>, caseText: Option<string>,
    disputeType: Option<string>, status: Option<string>): (r: Option<CaseUpdate>)
    ensures r.Some? <==>
      && (title.Some? ==> TitleInBounds(title.value))
      && (caseText.Some? ==> CaseTextInBounds(caseText.value))
      && (disputeType.Some? ==> ParseDisputeType(disputeType.value).Some?)
      && (status.Some? ==> ParseCaseStatus(status.value).Some?)
    ensures r.Some? ==>
      && r.value.title == title
      && r.value.caseText == caseText
      && (r.value.disputeType.Some? <==> disputeType.Some?)
      && (r.value.disputeType.Some? ==> r.value.disputeType.value.Value() == disputeType.value)
      && (r.value.status.Some? <==> status.Some?)
      && (r.value.status.Some? ==> r.value.status.value.Value() == status.value)
  {
    if title.Some? && !TitleInBounds(title.value) then None
    else if caseText.Some? && !CaseTextInBounds(caseText.value) then None
    else
      var d :- OptionalField(disputeType, ParseDisputeType);
      var s :- OptionalField(status, ParseCaseStatus);
      Some(CaseUpdate(title, caseText, d, s))
  }

  /** An optional field: absent stays absent, present must parse. */
  function OptionalField<T>(v: Option<string>, parse: string -> Option<T>): (r: Option<Option<T>>)
    ensures r.Some? <==> (v.Some? ==> parse(v.value).Some?)
    ensures r.Some? ==> (r.value.Some? <==> v.Some?)
    ensures r.Some? && v.Some? ==> r.value == parse(v.value)
  {
    match v
    case None => Some(None)
    case Some(s) =>
      var t :- parse(s);
      Some(Some(t))
  }

  // ---------------------------------------------------------------------------------------
  // The AIResponse schema
  // ---------------------------------------------------------------------------------------

  /** A confidence score as `Field(..., ge=1, le=10)` admits it. */
  type Score = x: int | 1 <= x <= 10 witness 1

  datatype CaseSummary = CaseSummary(facts: string, claims: string, disputeNature: string)
  datatype ApplicableLaw = ApplicableLaw(law: string, relevance: string)
  datatype Precedent = Precedent(caseName: string, relevance: string)

  /** `LegalStrategies`: each list may be absent (read as `[]`) or `null` (read as `None`). */
  datatype LegalStrategies = LegalStrategies(plaintiff: Option<seq<string>>, defendant: Option<seq<string>>)

  datatype AIResponse = AIResponse(
    caseSummary: CaseSummary,
    legalIssues: seq<string>,
    applicableLaws: seq<ApplicableLaw>,
    missingEvidence: seq<string>,
    strategies: LegalStrategies,
    confidenceScore: Score,
    nextSteps: seq<string>,
    precedents: Option<seq<Precedent>>,
    estimatedTimeline: Option<string>,
    estimatedCosts: Option<string>)

  function AsString(j: Json): (r: Option<string>)
    ensures r.Some? <==> j.JStr?
    ensures r.Some? ==> r.value == j.s
  {
    if j.JStr? then Some(j.s) else None
  }

  /** A `List[str]` field. */
  function AsStringList(j: Json): (r: Option<seq<string>>)
    ensures r.Some? <==> (j.JArr? && forall i :: 0 <= i < |j.items| ==> j.items[i].JStr?)
    ensures r.Some? ==> |r.value| == |j.items| && forall i :: 0 <= i < |r.value| ==> j.items[i] == JStr(r.value[i])
  {
    if j.JArr? && forall i :: 0 <= i < |j.items| ==> j.items[i].JStr? then
      Some(seq(|j.items|, i requires 0 <= i < |j.items| => j.items[i].s))
    else None
  }

  /** An object with two required string fields, `first` and `second`. */
  function AsPair(j: Json, first: string, second: string): (r: Option<(string, string)>)
    ensures r.Some? <==>
      (j.JObj? && first in j.fields && j.fields[first].JStr? && second in j.fields && j.fields[second].JStr?)
    ensures r.Some? ==> j.fields[first] == JStr(r.value.0) && j.fields[second] == JStr(r.value.1)
  {
    if j.JObj? && first in j.fields && j.fields[first].JStr? && second in j.fields && j.fields[second].JStr? then
      Some((j.fields[first].s, j.fields[second].s))
    else None
  }

  predicate IsPair(j: Json, first: string, second: string) {
    AsPair(j, first, second).Some?
  }

  /** A list of objects each holding the two string fields. */
  function AsPairList(j: Json, first: string, second: string): (r: Option<seq<(string, string)>>)
    ensures r.Some? <==> (j.JArr? && forall i :: 0 <= i < |j.items| ==> IsPair(j.items[i], first, second))
    ensures r.Some? ==> |r.value| == |j.items|
  {
    if j.JArr? && forall i :: 0 <= i < |j.items| ==> IsPair(j.items[i], first, second) then
      Some(seq(|j.items|, i requires 0 <= i < |j.items| && IsPair(j.items[i], first, second) =>
        AsPair(j.items[i], first, second).value))
    else None
  }

  function AsSummary(j: Json): (r: Option<CaseSummary>)
    ensures r.Some? ==> j.JObj?
  {
    if !j.JObj? then None
    else
      var facts :- Required(j.fields, "facts", AsString);
      var claims :- Required(j.fields, "claims", AsString);
      var nature :- Required(j.fields, "dispute_nature", AsString);
      Some(CaseSummary(facts, claims, nature))
  }

  /** A required field: the key must be present and its value must parse. */
  function Required<T>(m: map<string, Json>, k: string, parse: Json -> Option<T>): (r: Option<T>)
    ensures r.Some? <==> (k in m && parse(m[k]).Some?)
    ensures r.Some? ==> r == parse(m[k])
  {
    if k in m then parse(m[k]) else None
  }

  /**
    An `Optional[X] = default` field: absent gives `default`, `null` gives `None`, anything else
    must parse.
   */
  function Nullable<T>(m: map<string, Json>, k: string, default: Option<T>, parse: Json -> Option<T>): (r: Option<Option<T>>)
    ensures r.Some? <==> (k !in m || m[k] == JNull || parse(m[k]).Some?)
    ensures k !in m ==> r == Some(default)
  {
    if k !in m then Some(default)
    else if m[k] == JNull then Some(None)
    else
      var v :- parse(m[k]);
      Some(Some(v))
  }

  function AsStrategies(j: Json): (r: Option<LegalStrategies>)
    ensures r.Some? ==> j.JObj?
  {
    if !j.JObj? then None
    else
      var p :- Nullable(j.fields, "plaintiff", Some([]), AsStringList);
      var d :- Nullable(j.fields, "defendant", Some([]), AsStringList);
      Some(LegalStrategies(p, d))
  }

  /** An `int` field with `ge=1, le=10`; a float with no fractional part is accepted as its integer. */
  function AsScore(j: Json): (r: Option<Score>)
    ensures r.Some? <==> (j.JNum? && j.n == j.n.Floor as real && 1.0 <= j.n <= 10.0)
    ensures r.Some? ==> r.value as real == j.n
  {
    if j.JNum? && j.n == j.n.Floor as real && 1.0 <= j.n <= 10.0 then Some(j.n.Floor) else None
  }

  function AsLaws(j: Json): (r: Option<seq<ApplicableLaw>>)
    ensures r.Some? <==> AsPairList(j, "law", "relevance").Some?
  {
    var ps :- AsPairList(j, "law", "relevance");
    Some(seq(|ps|, i requires 0 <= i < |ps| => ApplicableLaw(ps[i].0, ps[i].1)))
  }

  function AsPrecedents(j: Json): (r: Option<seq<Precedent>>)
    ensures r.Some? <==> AsPairList(j, "case", "relevance").Some?
  {
    var ps :- AsPairList(j, "case", "relevance");
    Some(seq(|ps|, i requires 0 <= i < |ps| => Precedent(ps[i].0, ps[i].1)))
  }

  /**
    Reading a decoded object as an `AIResponse`: required fields must be present and well
    typed, optional ones absent, `null` or well typed, and unknown keys are ignored. The
    schema is applied strictly: the lax conversions of the validation library are not modelled.
   */
  function ToAIResponse(j: Json): (r: Option<AIResponse>)
    ensures r.Some? ==> j.JObj? && "confidence_score" in j.fields && j.fields["confidence_score"].JNum?
    ensures r.Some? ==> r.value.confidenceScore as real == j.fields["confidence_score"].n
  {
    if !j.JObj? then None
    else
      var m := j.fields;
      var summary :- Required(m, "case_summary", AsSummary);
      var issues :- Required(m, "legal_issues", AsStringList);
      var laws :- Required(m, "applicable_laws", AsLaws);
      var evidence :- Required(m, "missing_evidence", AsStringList);
      var strategies :- Required(m, "strategies", AsStrategies);
      var score :- Required(m, "confidence_score", AsScore);
      var steps :- Required(m, "next_steps", AsStringList);
      var precedents :- Nullable(m, "precedents", Some([]), AsPrecedents);
      var timeline :- Nullable(m, "estimated_timeline", None, AsString);
      var costs :- Nullable(m, "estimated_costs", None, AsString);
      Some(AIResponse(summary, issues, laws, evidence, strategies, score, steps, precedents, timeline, costs))
  }

  /** The keys an `AIResponse` cannot do without. */
  const RequiredResponseKeys: set<string> := {
    "case_summary", "legal_issues", "applicable_laws", "missing_evidence",
    "strategies", "confidence_score", "next_steps"}

  /** Whether the value under key `k` is acceptable for that field of `AIResponse`. */
  predicate FieldConforms(k: string, v: Json) {
    if k == "case_summary" then AsSummary(v).Some?
    else if k == "legal_issues" || k == "missing_evidence" || k == "next_steps" then AsStringList(v).Some?
    else if k == "applicable_laws" then AsLaws(v).Some?
    else if k == "strategies" then AsStrategies(v).Some?
    else if k == "confidence_score" then AsScore(v).Some?
    else if k == "precedents" then v == JNull || AsPrecedents(v).Some?
    else if k == "estimated_timeline" || k == "estimated_costs" then v == JNull || AsString(v).Some?
    else true
  }

  /** A field-by-field reading of the schema: every required key present, every key acceptable. */
  predicate Conforms(m: map<string, Json>) {
    && RequiredResponseKeys <= m.Keys
    && forall k :: k in m ==> FieldConforms(k, m[k])
  }

  lemma ToAIResponseSound(m: map<string, Json>)
    requires ToAIResponse(JObj(m)).Some?
    ensures Conforms(m)
  {
    forall k | k in m
      ensures FieldConforms(k, m[k])
    {
    }
  }

  lemma ToAIResponseComplete(m: map<string, Json>)
    requires Conforms(m)
    ensures ToAIResponse(JObj(m)).Some?
  {
    assert FieldConforms("case_summary", m["case_summary"]);
    assert FieldConforms("legal_issues", m["legal_issues"]);
    assert FieldConforms("applicable_laws", m["applicable_laws"]);
    assert FieldConforms("missing_evidence", m["missing_evidence"]);
    assert FieldConforms("strategies", m["strategies"]);
    assert FieldConforms("confidence_score", m["confidence_score"]);
    assert FieldConforms("next_steps", m["next_steps"]);
    if "precedents" in m { assert FieldConforms("precedents", m["precedents"]); }
    if "estimated_timeline" in m { assert FieldConforms("estimated_timeline", m["estimated_timeline"]); }
    if "estimated_costs" in m { assert FieldConforms("estimated_costs", m["estimated_costs"]); }
  }

  /** The schema accepts a decoded object exactly when each of its fields is acceptable. */
  lemma ToAIResponseIff(m: map<string, Json>)
    ensures ToAIResponse(JObj(m)).Some? <==> Conforms(m)
  {
    if ToAIResponse(JObj(m)).Some? {
      ToAIResponseSound(m);
    }
    if Conforms(m) {
      ToAIResponseComplete(m);
    }
  }
}

=== FILE: report.dfy ===
/**
  The content decisions of the PDF case report: which sections and lines are emitted, how list
  items are numbered, how the dispute type is labelled and how the confidence score is banded.

  A report is a sequence of `Element`s; fonts, colours of table cells, spacers, page breaks and
  the footer are layout and are not modelled. A section that would raise in the source yields
  `None`, which makes the whole report fail: a truthy non-string value handed to a paragraph as
  it is, for instance, raises. Python's `str()` of a non-string value formatted into a numbered
  line or a table cell, and `str.title()`, are parameters (`render`, `titleCase`).
 */
module Report {
  import opened Wrappers
  import opened Text
  import opened JsonValues
  import Models
  import AiService

  datatype Element =
    | Heading(text: string)
    | Body(text: string)
    | Item(text: string)
    | ScoreLine(color: string, shown: string)
    | Table(rows: seq<seq<string>>)

  /** How a decoded value is printed: a string as itself, anything else through `render`. */
  function Show(render: Json -> string, j: Json): string {
    if j.JStr? then j.s else render(j)
  }

  // ---------------------------------------------------------------------------------------
  // Dispute-type labels
  // ---------------------------------------------------------------------------------------

  /** The display label of each dispute type. */
  function Label(d: Models.DisputeType): string {
    match d
    case Inheritance => "Inheritance & Partition"
    case Boundary => "Boundary Disputes"
    case Mutation => "Mutation & Title Issues"
    case Tax => "Property Tax Issues"
    case BbmpBda => "BBMP/BDA Issues"
    case Other => "Other Property Issues"
  }

  /**
    `format_dispute_type`: a lookup keyed by the stored string. A known value gets its label;
    any other string is title-cased.
   */
  function FormatDisputeType(key: string, titleCase: string -> string): (r: string)
    ensures Models.ParseDisputeType(key).Some? ==> r == Label(Models.ParseDisputeType(key).value)
    ensures Models.ParseDisputeType(key).None? ==> r == titleCase(key)
  {
    if key == "inheritance" then "Inheritance & Partition"
    else if key == "boundary" then "Boundary Disputes"
    else if key == "mutation" then "Mutation & Title Issues"
    else if key == "tax" then "Property Tax Issues"
    else if key == "bbmp_bda" then "BBMP/BDA Issues"
    else if key == "other" then "Other Property Issues"
    else titleCase(key)
  }

  /** Distinct dispute types are shown with distinct labels. */
  lemma LabelInjective(d1: Models.DisputeType, d2: Models.DisputeType)
    requires Label(d1) == Label(d2)
    ensures d1 == d2
  {
  }

  // ---------------------------------------------------------------------------------------
  // Confidence banding
  // ---------------------------------------------------------------------------------------

  const Green: string := "#27ae60"
  const Orange: string := "#f39c12"
  const Red: string := "#e74c3c"

  const HighExplanation: string :=
    "High confidence: The analysis is based on clear facts and straightforward legal application."
  const MediumExplanation: string :=
    "Medium confidence: The analysis provides good guidance, but some key information may be missing."
  const LowExplanation: string :=
    "Low confidence: The analysis is preliminary due to insufficient facts or complex legal issues. Professional consultation is strongly recommended."

  /** `get_confidence_color`: green from 7 up, orange from 4 below 7, red below 4. */
  function ConfidenceColor(score: real): (c: string)
    ensures c == Green <==> score >= 7.0
    ensures c == Orange <==> 4.0 <= score < 7.0
    ensures c == Red <==> score < 4.0
  {
    if score >= 7.0 then Green else if score >= 4.0 then Orange else Red
  }

  /** `get_confidence_explanation`, with its own copy of the thresholds. */
  function ConfidenceExplanation(score: real): (e: string)
    ensures e == HighExplanation <==> score >= 7.0
    ensures e == MediumExplanation <==> 4.0 <= score < 7.0
    ensures e == LowExplanation <==> score < 4.0
  {
    if score >= 7.0 then HighExplanation
    else if score >= 4.0 then MediumExplanation
    else LowExplanation
  }

  /** The explanation that belongs with each colour. */
  function ExplanationFor(color: string): string {
    if color == Green then HighExplanation
    else if color == Orange then MediumExplanation
    else LowExplanation
  }

  /**
    The colour and the explanation always agree: the explanation is the one belonging to the
    colour, and two scores get the same explanation iff they get the same colour.
   */
  lemma ColorAndExplanationAgree(x: real, y: real)
    ensures ConfidenceExplanation(x) == ExplanationFor(ConfidenceColor(x))
    ensures ConfidenceExplanation(x) == ConfidenceExplanation(y) <==> ConfidenceColor(x) == ConfidenceColor(y)
  {
  }

  /** On the integer scores 1..10 the bands are 1-3 red, 4-6 orange and 7-10 green. */
  lemma IntegerScoreBands(n: int)
    requires 1 <= n <= 10
    ensures n <= 3 ==> ConfidenceColor(n as real) == Red
    ensures 4 <= n <= 6 ==> ConfidenceColor(n as real) == Orange
    ensures 7 <= n ==> ConfidenceColor(n as real) == Green
  {
  }

  /**
    `create_confidence_section`: the score (5 when absent) is shown with its colour and
    explanation. A value that cannot be compared with a number makes the section raise.
   */
  function ConfidenceSection(ai: map<string, Json>, render: Json -> string): (r: Option<seq<Element>>)
    ensures r.Some? <==> NumericValue(GetOr(ai, "confidence_score", JNum(5.0))).Some?
    ensures r.Some? ==> |r.value| == 3 && r.value[0] == Heading("Confidence Assessment")
    ensures r.Some? ==>
      var score := GetOr(ai, "confidence_score", JNum(5.0));
      var x := NumericValue(score).value;
      && r.value[1] == ScoreLine(ConfidenceColor(x), render(score))
      && r.value[2] == Body(ConfidenceExplanation(x))
  {
    var score := GetOr(ai, "confidence_score", JNum(5.0));
    match NumericValue(score)
    case None => None
    case Some(x) =>
      Some([Heading("Confidence Assessment"), ScoreLine(ConfidenceColor(x), render(score)), Body(ConfidenceExplanation(x))])
  }

  /**
    Every normalised analysis has a confidence section: its score is an integer n in [1, 10],
    shown in the band `IntegerScoreBands` gives n, with the explanation that belongs to that
    colour.
   */
  lemma RepairedConfidenceSection(ai: map<string, Json>, render: Json -> string)
    requires AiService.IsRepaired(ai)
    ensures var r := ConfidenceSection(ai, render);
      && r.Some?
      && r.value[1].ScoreLine?
      && r.value[2] == Body(ExplanationFor(r.value[1].color))
      && (r.value[1].color == Green <==> ai["confidence_score"].n >= 7.0)
      && (r.value[1].color == Red <==> ai["confidence_score"].n <= 3.0)
  {
  }

  /** A record without a confidence score is reported as 5, in the medium band. */
  lemma MissingScoreIsMedium(ai: map<string, Json>, render: Json -> string)
    requires "confidence_score" !in ai
    ensures ConfidenceSection(ai, render).Some?
    ensures ConfidenceSection(ai, render).value[1] == ScoreLine(Orange, render(JNum(5.0)))
    ensures ConfidenceSection(ai, render).value[2] == Body(MediumExplanation)
  {
  }

  // ---------------------------------------------------------------------------------------
  // Labelled blocks and numbered lists
  // ---------------------------------------------------------------------------------------

  /**
    Whether a value passes the type test of reportlab's `Paragraph`: the paragraph reads its text
    as a string, so any other truthy value makes it raise. The paragraph also parses that string
    as markup; the parser is not modelled, and every string is taken to be well-formed markup.
   */
  predicate Printable(v: Json) {
    !Truthy(v) || v.JStr?
  }

  /**
    A label paragraph followed by the value's own paragraph, emitted only when the value is
    truthy; a truthy value that is not a string makes it raise.
   */
  function LabelledBlock(v: Json, caption: string): (r: Option<seq<Element>>)
    ensures r.Some? <==> Printable(v)
    ensures !Truthy(v) ==> r == Some([])
    ensures Truthy(v) && v.JStr? ==> r == Some([Body(caption), Body(v.s)]) && v.s != []
  {
    if !Truthy(v) then Some([])
    else if v.JStr? then Some([Body(caption), Body(v.s)])
    else None
  }

  /**
    The elements Python's `for x in v` visits. A string yields its characters; a list its
    items; numbers and booleans are not iterable. Iterating an object would visit its keys in
    insertion order, which a map does not keep: that case is treated as a failure.
   */
  function Iterate(v: Json): (r: Option<seq<Json>>)
    ensures r.Some? <==> (v.JArr? || v.JStr?)
    ensures v.JArr? ==> r == Some(v.items)
    ensures v.JStr? ==> r.Some? && |r.value| == |v.s| && forall i :: 0 <= i < |v.s| ==> r.value[i] == JStr([v.s[i]])
  {
    match v
    case JArr(items) => Some(items)
    case JStr(s) => Some(seq(|s|, i requires 0 <= i < |s| => JStr([s[i]])))
    case _ => None
  }

  /** The "i. item" line for the item at zero-based position `i`. */
  function NumberedText(i: nat, item: string): string {
    NatToString(i + 1) + ". " + item
  }

  /** `enumerate(items, 1)` rendered as list items. */
  function Numbered(items: seq<Json>, render: Json -> string): (r: seq<Element>)
    ensures |r| == |items|
    ensures forall i :: 0 <= i < |items| ==> r[i] == Item(NumberedText(i, Show(render, items[i])))
  {
    seq(|items|, i requires 0 <= i < |items| => Item(NumberedText(i, Show(render, items[i]))))
  }

  /**
    The numbering reads back: the leading digits of the line for position `i` are the decimal
    form of `i + 1`, they parse to `i + 1`, and after ". " comes the item's text unchanged.
   */
  lemma NumberedTextReadsBack(i: nat, item: string)
    ensures var t := NumberedText(i, item);
      && LeadingDigits(t) == NatToString(i + 1)
      && ParseDigits(LeadingDigits(t)) == i + 1
      && t[|NatToString(i + 1)| + 2..] == item
  {
    var d := NatToString(i + 1);
    var t := NumberedText(i, item);
    assert t == d + (". " + item);
    LeadingDigitsOfNumber(d, ". " + item);
    ParseNatToString(i + 1);
  }

  /**
    A lead element followed by the numbered items of `v`; nothing at all when `v` is falsy.
    A truthy value that cannot be iterated makes it raise.
   */
  function NumberedBlock(v: Json, lead: Element, render: Json -> string): (r: Option<seq<Element>>)
    ensures !Truthy(v) ==> r == Some([])
    ensures Truthy(v) && r.Some? ==> Iterate(v).Some? && |r.value| == 1 + |Iterate(v).value| && r.value[0] == lead
    ensures r.Some? <==> (!Truthy(v) || Iterate(v).Some?)
  {
    if !Truthy(v) then Some([])
    else
      var items :- Iterate(v);
      Some([lead] + Numbered(items, render))
  }

  // ---------------------------------------------------------------------------------------
  // The sections
  // ---------------------------------------------------------------------------------------

  /** The three sub-fields of a summary object, in report order. */
  function SummaryParts(m: map<string, Json>): seq<Json> {
    [GetOr(m, "facts", JNull), GetOr(m, "claims", JNull), GetOr(m, "dispute_nature", JNull)]
  }

  /**
    `create_case_summary_section`: the heading, then a labelled block for each truthy one of
    facts, claims and dispute nature. A summary that is not an object, or a truthy sub-field
    that is not a string, makes it raise.
   */
  function SummarySection(ai: map<string, Json>): (r: Option<seq<Element>>)
    ensures r.Some? <==>
      && GetOr(ai, "case_summary", JObj(map[])).JObj?
      && forall i :: 0 <= i < 3 ==> Printable(SummaryParts(GetOr(ai, "case_summary", JObj(map[])).fields)[i])
    ensures r.Some? ==> r.value != [] && r.value[0] == Heading("Case Summary")
  {
    var cs := GetOr(ai, "case_summary", JObj(map[]));
    if !cs.JObj? then None
    else
      var parts := SummaryParts(cs.fields);
      var facts :- LabelledBlock(parts[0], "<b>Facts:</b>");
      var claims :- LabelledBlock(parts[1], "<b>Claims:</b>");
      var nature :- LabelledBlock(parts[2], "<b>Dispute Nature:</b>");
      Some([Heading("Case Summary")] + facts + claims + nature)
  }

  function CountTruthy(vs: seq<Json>): nat {
    if vs == [] then 0 else (if Truthy(vs[0]) then 1 else 0) + CountTruthy(vs[1..])
  }

  /** The summary section has the heading and two lines per truthy sub-field. */
  lemma SummarySectionSize(ai: map<string, Json>)
    requires SummarySection(ai).Some?
    ensures |SummarySection(ai).value| == 1 + 2 * CountTruthy(SummaryParts(GetOr(ai, "case_summary", JObj(map[])).fields))
  {
    var m := GetOr(ai, "case_summary", JObj(map[])).fields;
    var v0, v1, v2 := GetOr(m, "facts", JNull), GetOr(m, "claims", JNull), GetOr(m, "dispute_nature", JNull);
    assert [v0, v1, v2][1..] == [v1, v2];
    assert [v1, v2][1..] == [v2];
    assert CountTruthy([v2]) == (if Truthy(v2) then 1 else 0) + CountTruthy([]);
    assert CountTruthy([v1, v2]) == (if Truthy(v1) then 1 else 0) + CountTruthy([v2]);
  }

  /** A list section: heading and numbered items, omitted when the list is missing or empty. */
  function ListSection(ai: map<string, Json>, key: string, heading: string, render: Json -> string): (r: Option<seq<Element>>)
    ensures !Truthy(GetOr(ai, key, JArr([]))) ==> r == Some([])
    ensures r.Some? <==> !Truthy(GetOr(ai, key, JArr([]))) || Iterate(GetOr(ai, key, JArr([]))).Some?
    ensures r.Some? && r.value != [] ==> r.value[0] == Heading(heading)
  {
    NumberedBlock(GetOr(ai, key, JArr([])), Heading(heading), render)
  }

  /** Each item of a list section is printed as "i. item", numbered from 1 in input order. */
  lemma ListSectionItems(ai: map<string, Json>, key: string, heading: string, render: Json -> string, i: nat)
    requires key in ai && ai[key].JArr? && i < |ai[key].items|
    ensures var r := ListSection(ai, key, heading, render);
      && r.Some? && |r.value| == 1 + |ai[key].items|
      && r.value[0] == Heading(heading)
      && r.value[i + 1] == Item(NumberedText(i, Show(render, ai[key].items[i])))
  {
  }

  /** The row of the laws table for one law: "N/A" for a missing law or relevance. */
  function LawRow(law: map<string, Json>, render: Json -> string): (row: seq<string>)
    ensures |row| == 2
    ensures "law" !in law ==> row[0] == "N/A"
    ensures "relevance" !in law ==> row[1] == "N/A"
    ensures "law" in law ==> row[0] == Show(render, law["law"])
    ensures "relevance" in law ==> row[1] == Show(render, law["relevance"])
  {
    [Show(render, GetOr(law, "law", JStr("N/A"))), Show(render, GetOr(law, "relevance", JStr("N/A")))]
  }

  /** The rows for the laws, in order; an entry that is not an object makes it raise. */
  function LawRows(laws: seq<Json>, render: Json -> string): (r: Option<seq<seq<string>>>)
    ensures r.Some? <==> forall i :: 0 <= i < |laws| ==> laws[i].JObj?
    ensures r.Some? ==> |r.value| == |laws|
    ensures r.Some? ==> forall i :: 0 <= i < |laws| ==> r.value[i] == LawRow(laws[i].fields, render)
  {
    if laws == [] then Some([])
    else if !laws[0].JObj? then None
    else
      var rest :- LawRows(laws[1..], render);
      Some([LawRow(laws[0].fields, render)] + rest)
  }

  const LawsHeader: seq<string> := ["Law/Section", "Relevance"]

  /** `create_applicable_laws_section`: a heading and a table of one header row plus one row per law. */
  function LawsSection(ai: map<string, Json>, render: Json -> string): (r: Option<seq<Element>>)
    ensures !Truthy(GetOr(ai, "applicable_laws", JArr([]))) ==> r == Some([])
  {
    var v := GetOr(ai, "applicable_laws", JArr([]));
    if !Truthy(v) then Some([])
    else
      var laws :- Iterate(v);
      var rows :- LawRows(laws, render);
      Some([Heading("Applicable Laws"), Table([LawsHeader] + rows)])
  }

  /** A non-empty list of law objects gives a table of the header row and then one row per law, in order. */
  lemma LawsTableRows(ai: map<string, Json>, render: Json -> string)
    requires "applicable_laws" in ai && ai["applicable_laws"].JArr? && ai["applicable_laws"].items != []
    requires forall i :: 0 <= i < |ai["applicable_laws"].items| ==> ai["applicable_laws"].items[i].JObj?
    ensures var r := LawsSection(ai, render);
      && r.Some? && |r.value| == 2
      && r.value[1].Table? && |r.value[1].rows| == 1 + |ai["applicable_laws"].items|
      && r.value[1].rows[0] == LawsHeader
      && forall i :: 0 <= i < |ai["applicable_laws"].items| ==>
           r.value[1].rows[i + 1] == LawRow(ai["applicable_laws"].items[i].fields, render)
  {
  }

  /**
    `create_strategies_section`: when strategies are truthy, a heading and a labelled numbered
    block for each side whose list is truthy. Truthy strategies that are not an object raise.
   */
  function StrategiesSection(ai: map<string, Json>, render: Json -> string): (r: Option<seq<Element>>)
    ensures !Truthy(GetOr(ai, "strategies", JObj(map[]))) ==> r == Some([])
    ensures Truthy(GetOr(ai, "strategies", JObj(map[]))) && !GetOr(ai, "strategies", JObj(map[])).JObj? ==> r.None?
    ensures r.Some? && r.value != [] ==> r.value[0] == Heading("Legal Strategies")
  {
    var st := GetOr(ai, "strategies", JObj(map[]));
    if !Truthy(st) then Some([])
    else if !st.JObj? then None
    else
      var p :- NumberedBlock(GetOr(st.fields, "plaintiff", JArr([])), Body("<b>For Plaintiff:</b>"), render);
      var d :- NumberedBlock(GetOr(st.fields, "defendant", JArr([])), Body("<b>For Defendant:</b>"), render);
      Some([Heading("Legal Strategies")] + p + d)
  }

  /** The lead and item count a side's numbered block takes up in the strategies section. */
  function SideLength(items: seq<Json>): nat {
    if items == [] then 0 else 1 + |items|
  }

  /**
    With both sides given as lists, the strategies section is the heading, then for each side
    with items its lead paragraph and its items numbered "i. item" from 1 in order: plaintiff
    first, then defendant.
   */
  lemma StrategiesSectionItems(ai: map<string, Json>, render: Json -> string, p: seq<Json>, d: seq<Json>)
    requires "strategies" in ai && ai["strategies"].JObj?
    requires var st := ai["strategies"].fields;
      "plaintiff" in st && st["plaintiff"] == JArr(p) && "defendant" in st && st["defendant"] == JArr(d)
    ensures var r := StrategiesSection(ai, render);
      && r.Some? && |r.value| == 1 + SideLength(p) + SideLength(d)
      && r.value[0] == Heading("Legal Strategies")
      && (p != [] ==> r.value[1] == Body("<b>For Plaintiff:</b>"))
      && (forall i :: 0 <= i < |p| ==> r.value[2 + i] == Item(NumberedText(i, Show(render, p[i]))))
      && (d != [] ==> r.value[1 + SideLength(p)] == Body("<b>For Defendant:</b>"))
      && (forall j :: 0 <= j < |d| ==> r.value[2 + SideLength(p) + j] == Item(NumberedText(j, Show(render, d[j]))))
  {
    StrategiesSectionShape(ai, render, p, d);
  }

  /** One side's block: its lead and its numbered items, or nothing for an empty list. */
  function SideBlock(items: seq<Json>, lead: Element, render: Json -> string): (r: seq<Element>)
    ensures |r| == SideLength(items)
    ensures items != [] ==> r[0] == lead
    ensures forall i :: 0 <= i < |items| ==> r[1 + i] == Item(NumberedText(i, Show(render, items[i])))
  {
    if items == [] then [] else [lead] + Numbered(items, render)
  }

  /** For two list sides the section is the heading followed by each side's block, plaintiff first. */
  lemma StrategiesSectionShape(ai: map<string, Json>, render: Json -> string, p: seq<Json>, d: seq<Json>)
    requires "strategies" in ai && ai["strategies"].JObj?
    requires var st := ai["strategies"].fields;
      "plaintiff" in st && st["plaintiff"] == JArr(p) && "defendant" in st && st["defendant"] == JArr(d)
    ensures StrategiesSection(ai, render)
      == Some([Heading("Legal Strategies")] + SideBlock(p, Body("<b>For Plaintiff:</b>"), render)
                                            + SideBlock(d, Body("<b>For Defendant:</b>"), render))
  {
    assert Truthy(ai["strategies"]);
    assert NumberedBlock(JArr(p), Body("<b>For Plaintiff:</b>"), render) == Some(SideBlock(p, Body("<b>For Plaintiff:</b>"), render));
    assert NumberedBlock(JArr(d), Body("<b>For Defendant:</b>"), render) == Some(SideBlock(d, Body("<b>For Defendant:</b>"), render));
  }

  /**
    `create_timeline_costs_section`: present iff the timeline or the costs are truthy; a truthy
    one that is not a string makes it raise.
   */
  function TimelineCostsSection(ai: map<string, Json>): (r: Option<seq<Element>>)
    ensures r.Some? <==> Printable(GetOr(ai, "estimated_timeline", JNull)) && Printable(GetOr(ai, "estimated_costs", JNull))
    ensures r.Some? ==>
      (r.value != [] <==> Truthy(GetOr(ai, "estimated_timeline", JNull)) || Truthy(GetOr(ai, "estimated_costs", JNull)))
    ensures r.Some? && r.value != [] ==> r.value[0] == Heading("Timeline & Cost Estimates")
  {
    var t := GetOr(ai, "estimated_timeline", JNull);
    var c := GetOr(ai, "estimated_costs", JNull);
    var timeline :- LabelledBlock(t, "<b>Estimated Timeline:</b>");
    var costs :- LabelledBlock(c, "<b>Estimated Costs:</b>");
    if Truthy(t) || Truthy(c) then Some([Heading("Timeline & Cost Estimates")] + timeline + costs)
    else Some([])
  }

  /** The header's case-information rows, from the stored case record. */
  function HeaderRows(caseData: map<string, Json>, dispute: string, userName: string, date: string,
                      render: Json -> string, titleCase: string -> string): seq<seq<string>> {
    [["Case Title:", Show(render, GetOr(caseData, "title", JStr("N/A")))],
     ["Dispute Type:", FormatDisputeType(dispute, titleCase)],
     ["Analysis Date:", date],
     ["Generated For:", userName],
     ["Case ID:", Show(render, GetOr(caseData, "id", JStr("N/A")))]]
  }

  /**
    `create_header`: title, subtitle and the case-information table. The dispute type defaults
    to "other"; a stored value that is not a string makes the lookup raise.
   */
  function Header(caseData: map<string, Json>, userName: string, date: string,
                  render: Json -> string, titleCase: string -> string): (r: Option<seq<Element>>)
    ensures r.Some? <==> GetOr(caseData, "dispute_type", JStr("other")).JStr?
    ensures r.Some? ==> |r.value| == 3 && r.value[2].Table? && |r.value[2].rows| == 5
    ensures r.Some? ==>
      r.value[0] == Heading("Property Law AI Assistant") && r.value[1] == Heading("Legal Case Analysis Report")
    ensures r.Some? ==>
      && r.value[2].rows[0] == ["Case Title:", Show(render, GetOr(caseData, "title", JStr("N/A")))]
      && r.value[2].rows[1] == ["Dispute Type:", FormatDisputeType(GetOr(caseData, "dispute_type", JStr("other")).s, titleCase)]
      && r.value[2].rows[2] == ["Analysis Date:", date]
      && r.value[2].rows[3] == ["Generated For:", userName]
      && r.value[2].rows[4] == ["Case ID:", Show(render, GetOr(caseData, "id", JStr("N/A")))]
  {
    var dt := GetOr(caseData, "dispute_type", JStr("other"));
    if !dt.JStr? then None
    else
      Some([Heading("Property Law AI Assistant"), Heading("Legal Case Analysis Report"),
            Table(HeaderRows(caseData, dt.s, userName, date, render, titleCase))])
  }

  /** The sections built from the analysis record, in report order. */
  function AnalysisSections(ai: map<string, Json>, render: Json -> string): (r: Option<seq<Element>>)
    ensures r.Some? ==> |r.value| >= 3 + 1 && r.value[0] == Heading("Confidence Assessment")
  {
    var confidence :- ConfidenceSection(ai, render);
    var summary :- SummarySection(ai);
    var issues :- ListSection(ai, "legal_issues", "Key Legal Issues", render);
    var laws :- LawsSection(ai, render);
    var strategies :- StrategiesSection(ai, render);
    var steps :- ListSection(ai, "next_steps", "Recommended Next Steps", render);
    var timelineCosts :- TimelineCostsSection(ai);
    Some(confidence + summary + issues + laws + strategies + steps + timelineCosts)
  }

  /**
    `generate_case_report_pdf`, up to the footer: header, then the analysis sections. A stored
    analysis that is not an object makes it raise.
   */
  function CaseReport(caseData: map<string, Json>, userName: string, date: string,
                      render: Json -> string, titleCase: string -> string): (r: Option<seq<Element>>)
    ensures r.Some? ==> |r.value| >= 3 + 3 + 1
  {
    var header :- Header(caseData, userName, date, render, titleCase);
    var ai := GetOr(caseData, "ai_response", JObj(map[]));
    if !ai.JObj? then None
    else
      var body :- AnalysisSections(ai.fields, render);
      Some(header + body)
  }

  // ---------------------------------------------------------------------------------------
  // Records that satisfy the schema always render
  // ---------------------------------------------------------------------------------------

  lemma StringListIterates(j: Json)
    requires Models.AsStringList(j).Some?
    ensures Iterate(j) == Some(j.items)
  {
  }

  lemma ConformingSummaryRenders(ai: map<string, Json>)
    requires "case_summary" in ai && Models.AsSummary(ai["case_summary"]).Some?
    ensures SummarySection(ai).Some?
  {
    var m := ai["case_summary"].fields;
    assert Models.Required(m, "facts", Models.AsString).Some?;
    assert Models.Required(m, "claims", Models.AsString).Some?;
    assert Models.Required(m, "dispute_nature", Models.AsString).Some?;
    assert forall i :: 0 <= i < 3 ==> SummaryParts(m)[i].JStr?;
  }

  lemma ConformingTimelineCostsRender(ai: map<string, Json>)
    requires "estimated_timeline" in ai ==> Models.FieldConforms("estimated_timeline", ai["estimated_timeline"])
    requires "estimated_costs" in ai ==> Models.FieldConforms("estimated_costs", ai["estimated_costs"])
    ensures TimelineCostsSection(ai).Some?
  {
  }

  lemma ConformingListRenders(ai: map<string, Json>, key: string, heading: string, render: Json -> string)
    requires key in ai && Models.AsStringList(ai[key]).Some?
    ensures ListSection(ai, key, heading, render).Some?
  {
  }

  lemma ConformingLawsRender(ai: map<string, Json>, render: Json -> string)
    requires "applicable_laws" in ai && Models.AsLaws(ai["applicable_laws"]).Some?
    ensures LawsSection(ai, render).Some?
  {
    var v := ai["applicable_laws"];
    assert forall i :: 0 <= i < |v.items| ==> Models.IsPair(v.items[i], "law", "relevance");
  }

  lemma ConformingSideRenders(st: map<string, Json>, key: string, lead: Element, render: Json -> string)
    requires Models.Nullable(st, key, Some([]), Models.AsStringList).Some?
    ensures NumberedBlock(GetOr(st, key, JArr([])), lead, render).Some?
  {
  }

  lemma ConformingStrategiesRender(ai: map<string, Json>, render: Json -> string)
    requires "strategies" in ai && Models.AsStrategies(ai["strategies"]).Some?
    ensures StrategiesSection(ai, render).Some?
  {
    var st := ai["strategies"].fields;
    ConformingSideRenders(st, "plaintiff", Body("<b>For Plaintiff:</b>"), render);
    ConformingSideRenders(st, "defendant", Body("<b>For Defendant:</b>"), render);
  }

  /** Every analysis record that satisfies the `AIResponse` schema renders without raising. */
  lemma ConformingAnalysisRenders(ai: map<string, Json>, render: Json -> string)
    requires Models.Conforms(ai)
    ensures AnalysisSections(ai, render).Some?
  {
    assert Models.FieldConforms("confidence_score", ai["confidence_score"]);
    assert Models.FieldConforms("case_summary", ai["case_summary"]);
    assert Models.FieldConforms("legal_issues", ai["legal_issues"]);
    assert Models.FieldConforms("applicable_laws", ai["applicable_laws"]);
    assert Models.FieldConforms("strategies", ai["strategies"]);
    assert Models.FieldConforms("next_steps", ai["next_steps"]);
    if "estimated_timeline" in ai { assert Models.FieldConforms("estimated_timeline", ai["estimated_timeline"]); }
    if "estimated_costs" in ai { assert Models.FieldConforms("estimated_costs", ai["estimated_costs"]); }
    ConformingSummaryRenders(ai);
    ConformingTimelineCostsRender(ai);
    ConformingListRenders(ai, "legal_issues", "Key Legal Issues", render);
    ConformingLawsRender(ai, render);
    ConformingStrategiesRender(ai, render);
    ConformingListRenders(ai, "next_steps", "Recommended Next Steps", render);
  }

  /**
    A stored analysis whose summary facts are truthy but not a string (a list, say) makes the
    report raise. Repair keeps such a summary, and the analysis route stores it before checking
    the schema, so such a record can be stored.
   */
  lemma NonStringFactsFail(caseData: map<string, Json>, userName: string, date: string,
                           render: Json -> string, titleCase: string -> string)
    requires "ai_response" in caseData && caseData["ai_response"].JObj?
    requires var ai := caseData["ai_response"].fields;
      "case_summary" in ai && ai["case_summary"].JObj? && "facts" in ai["case_summary"].fields
      && Truthy(ai["case_summary"].fields["facts"]) && !ai["case_summary"].fields["facts"].JStr?
    ensures CaseReport(caseData, userName, date, render, titleCase).None?
  {
    var ai := caseData["ai_response"].fields;
    assert !Printable(SummaryParts(ai["case_summary"].fields)[0]);
    assert SummarySection(ai).None?;
  }

  /** A case whose stored analysis is the fallback record always yields a report. */
  lemma FallbackRecordRenders(caseData: map<string, Json>, userName: string, date: string,
                              render: Json -> string, titleCase: string -> string)
    requires "ai_response" in caseData && caseData["ai_response"] == JObj(AiService.FallbackResponse())
    requires GetOr(caseData, "dispute_type", JStr("other")).JStr?
    ensures CaseReport(caseData, userName, date, render, titleCase).Some?
  {
    AiService.FallbackConforms();
    ConformingAnalysisRenders(AiService.FallbackResponse(), render);
  }
}

=== FILE: text.dfy ===
/**
  Python's string primitives that the backend relies on: `str.strip()`, `str.startswith`,
  `str.endswith`, `str.split()` with no separator, and decimal rendering of a positive
  counter as `enumerate(..., 1)` numbering prints it.
 */
module Text {

  /** The characters for which Python's `str.isspace()` holds. */
  predicate IsSpace(c: char) {
    || ('\t' <= c <= '\r')
    || ('\U{1C}' <= c <= '\U{1F}')
    || c == ' '
    || c == '\U{85}'
    || c == '\U{A0}'
    || c == '\U{1680}'
    || ('\U{2000}' <= c <= '\U{200A}')
    || c == '\U{2028}'
    || c == '\U{2029}'
    || c == '\U{202F}'
    || c == '\U{205F}'
    || c == '\U{3000}'
  }

  predicate AllSpace(s: string) {
    forall i :: 0 <= i < |s| ==> IsSpace(s[i])
  }

  predicate NoSpace(s: string) {
    forall i :: 0 <= i < |s| ==> !IsSpace(s[i])
  }

  /** Neither end of `s` is whitespace. */
  predicate Trimmed(s: string) {
    s == [] || (!IsSpace(s[0]) && !IsSpace(s[|s| - 1]))
  }

  predicate StartsWith(s: string, prefix: string) {
    |prefix| <= |s| && s[..|prefix|] == prefix
  }

  predicate EndsWith(s: string, suffix: string) {
    |suffix| <= |s| && s[|s| - |suffix|..] == suffix
  }

  /** `str.lstrip()`: the suffix of `s` left after dropping leading whitespace. */
  function LStrip(s: string): (r: string)
    ensures |r| <= |s| && r == s[|s| - |r|..]
    ensures AllSpace(s[..|s| - |r|])
    ensures r == [] || !IsSpace(r[0])
    decreases |s|
  {
    if |s| > 0 && IsSpace(s[0]) then
      var r := LStrip(s[1..]);
      assert s[..|s| - |r|] == [s[0]] + s[1..][..|s| - 1 - |r|];
      r
    else
      s
  }

  /** `str.rstrip()`: the prefix of `s` left after dropping trailing whitespace. */
  function RStrip(s: string): (r: string)
    ensures |r| <= |s| && r == s[..|r|]
    ensures AllSpace(s[|r|..])
    ensures r == [] || !IsSpace(r[|r| - 1])
    decreases |s|
  {
    if |s| > 0 && IsSpace(s[|s| - 1]) then
      var r := RStrip(s[..|s| - 1]);
      assert s[|r|..] == s[..|s| - 1][|r|..] + [s[|s| - 1]];
      r
    else
      s
  }

  /** `str.strip()`. */
  function Strip(s: string): (r: string)
    ensures Trimmed(r)
    ensures |r| <= |s|
  {
    RStrip(LStrip(s))
  }

  lemma {:induction false} LStripOfSpacePrefix(a: string, t: string)
    requires AllSpace(a)
    requires t == [] || !IsSpace(t[0])
    ensures LStrip(a + t) == t
    decreases |a|
  {
    if a == [] {
      assert a + t == t;
    } else {
      assert (a + t)[1..] == a[1..] + t;
      LStripOfSpacePrefix(a[1..], t);
    }
  }

  lemma {:induction false} RStripOfSpaceSuffix(t: string, b: string)
    requires AllSpace(b)
    requires t == [] || !IsSpace(t[|t| - 1])
    ensures RStrip(t + b) == t
    decreases |b|
  {
    if b == [] {
      assert t + b == t;
    } else {
      assert (t + b)[..|t + b| - 1] == t + b[..|b| - 1];
      RStripOfSpaceSuffix(t, b[..|b| - 1]);
    }
  }

  /**
    `Strip` is characterised independently of how it is computed: padding a trimmed text with
    whitespace on both sides and stripping gives the text back.
   */
  lemma StripOfPadded(a: string, t: string, b: string)
    requires AllSpace(a) && AllSpace(b) && Trimmed(t)
    ensures Strip(a + t + b) == t
  {
    if t == [] {
      assert a + t + b == (a + b) + [];
      LStripOfSpacePrefix(a + b, []);
    } else {
      assert a + t + b == a + (t + b);
      LStripOfSpacePrefix(a, t + b);
      RStripOfSpaceSuffix(t, b);
    }
  }

  /** A text is its dropped prefix followed by what remains. */
  lemma {:induction false} SplitAt(s: string, k: nat)
    requires k <= |s|
    ensures s == s[..k] + s[k..]
  {
  }

  lemma {:induction false} Regroup(a: string, r: string, b: string, l: string, s: string)
    requires s == a + l && l == r + b
    ensures s == a + r + b
  {
    assert a + (r + b) == a + r + b;
  }

  /** Every text is its stripped form with whitespace around it. */
  lemma {:induction false} StripSplits(s: string) returns (a: string, b: string)
    ensures AllSpace(a) && AllSpace(b)
    ensures s == a + Strip(s) + b
  {
    var l := LStrip(s);
    a := s[..|s| - |l|];
    SplitAt(s, |s| - |l|);
    var r := RStrip(l);
    b := l[|r|..];
    SplitAt(l, |r|);
    Regroup(a, r, b, l, s);
  }

  lemma {:induction false} AllSpaceConcat(x: string, y: string)
    requires AllSpace(x) && AllSpace(y)
    ensures AllSpace(x + y)
  {
    forall i | 0 <= i < |x + y| ensures IsSpace((x + y)[i]) {
      if i < |x| { assert (x + y)[i] == x[i]; } else { assert (x + y)[i] == y[i - |x|]; }
    }
  }

  lemma {:induction false} Regroup5(a: string, a': string, t: string, b': string, b: string)
    ensures a + (a' + t + b') + b == (a + a') + t + (b' + b)
  {
  }

  /** Whitespace added around a text does not change what it strips to. */
  lemma {:induction false} StripAbsorbsPadding(a: string, p: string, b: string)
    requires AllSpace(a) && AllSpace(b)
    ensures Strip(a + p + b) == Strip(p)
  {
    var a', b' := StripSplits(p);
    var t := Strip(p);
    Regroup5(a, a', t, b', b);
    AllSpaceConcat(a, a');
    AllSpaceConcat(b', b);
    StripOfPadded(a + a', t, b' + b);
  }

  lemma NewlineIsSpace()
    ensures AllSpace("\n")
  {
    assert IsSpace("\n"[0]);
  }

  /** A trimmed text strips to itself. */
  lemma StripOfTrimmed(t: string)
    requires Trimmed(t)
    ensures Strip(t) == t
  {
    Regroup5([], [], t, [], []);
    StripOfPadded([], t, []);
  }

  lemma StripIdempotent(s: string)
    ensures Strip(Strip(s)) == Strip(s)
  {
    StripOfTrimmed(Strip(s));
  }

  /** The longest prefix of `s` that contains no whitespace. */
  function Token(s: string): (w: string)
    ensures |w| <= |s| && w == s[..|w|]
    ensures NoSpace(w)
    ensures |w| == |s| || IsSpace(s[|w|])
    decreases |s|
  {
    if |s| == 0 || IsSpace(s[0]) then [] else [s[0]] + Token(s[1..])
  }

  /** `str.split()` with no separator: the maximal runs of non-whitespace, in order. */
  function Words(s: string): (ws: seq<string>)
    ensures forall i :: 0 <= i < |ws| ==> ws[i] != [] && NoSpace(ws[i])
    decreases |s|
  {
    var t := LStrip(s);
    if t == [] then []
    else
      var w := Token(t);
      var rest := Words(t[|w|..]);
      WordsCons(w, rest);
      [w] + rest
  }

  lemma {:induction false} WordsCons(w: string, ws: seq<string>)
    requires w != [] && NoSpace(w)
    requires forall i :: 0 <= i < |ws| ==> ws[i] != [] && NoSpace(ws[i])
    ensures forall i :: 0 <= i < |[w] + ws| ==> ([w] + ws)[i] != [] && NoSpace(([w] + ws)[i])
  {
    forall i | 0 <= i < |[w] + ws| ensures ([w] + ws)[i] != [] && NoSpace(([w] + ws)[i]) {
      if i > 0 { assert ([w] + ws)[i] == ws[i - 1]; }
    }
  }

  /** The non-whitespace characters of `s`, in order. */
  function NonSpace(s: string): (r: string)
    ensures |r| <= |s|
  {
    if s == [] then []
    else (if IsSpace(s[0]) then [] else [s[0]]) + NonSpace(s[1..])
  }

  function Concat(ws: seq<string>): string {
    if ws == [] then [] else ws[0] + Concat(ws[1..])
  }

  lemma {:induction false} ConcatCons(w: string, ws: seq<string>)
    ensures Concat([w] + ws) == w + Concat(ws)
  {
    assert ([w] + ws)[1..] == ws;
  }

  lemma {:induction false} TailOfConcat(a: string, b: string)
    requires a != []
    ensures (a + b)[0] == a[0] && (a + b)[1..] == a[1..] + b
  {
  }

  lemma {:induction false} NonSpaceAppend(a: string, b: string)
    ensures NonSpace(a + b) == NonSpace(a) + NonSpace(b)
    decreases |a|
  {
    if a == [] {
      assert a + b == b;
    } else {
      TailOfConcat(a, b);
      NonSpaceAppend(a[1..], b);
    }
  }

  lemma {:induction false} NonSpaceOfSpaces(a: string)
    requires AllSpace(a)
    ensures NonSpace(a) == []
    decreases |a|
  {
    if a != [] {
      NonSpaceOfSpaces(a[1..]);
    }
  }

  lemma {:induction false} NonSpaceOfWord(w: string)
    requires NoSpace(w)
    ensures NonSpace(w) == w
    decreases |w|
  {
    if w != [] {
      NonSpaceOfWord(w[1..]);
      assert w == [w[0]] + w[1..];
    }
  }

  /**
    `str.split()` loses exactly the whitespace: joining the words gives the non-whitespace
    characters of the text in their original order.
   */
  lemma {:induction false} WordsCoverText(s: string)
    ensures Concat(Words(s)) == NonSpace(s)
    decreases |s|
  {
    var t := LStrip(s);
    var lead := s[..|s| - |t|];
    SplitAt(s, |s| - |t|);
    NonSpaceAppend(lead, t);
    NonSpaceOfSpaces(lead);
    if t != [] {
      var w := Token(t);
      var rest := t[|w|..];
      SplitAt(t, |w|);
      NonSpaceAppend(w, rest);
      NonSpaceOfWord(w);
      WordsCoverText(rest);
      ConcatCons(w, Words(rest));
    }
  }

  /** The decimal digit character for `d`. */
  function Digit(d: nat): char
    requires d < 10
  {
    "0123456789"[d]
  }

  predicate IsDigit(c: char) {
    '0' <= c <= '9'
  }

  /** Python's `str(n)` for a natural number. */
  function NatToString(n: nat): (r: string)
    ensures r != []
    ensures forall i :: 0 <= i < |r| ==> IsDigit(r[i])
  {
    if n < 10 then [Digit(n)] else NatToString(n / 10) + [Digit(n % 10)]
  }

  /** The value of a string of decimal digits (an independent reading of `NatToString`). */
  function ParseDigits(s: string): nat
    requires forall i :: 0 <= i < |s| ==> IsDigit(s[i])
  {
    if s == [] then 0
    else ParseDigits(s[..|s| - 1]) * 10 + DigitValue(s[|s| - 1])
  }

  function DigitValue(c: char): (d: nat)
    requires IsDigit(c)
    ensures d < 10
  {
    (c as int) - ('0' as int)
  }

  lemma {:induction false} ParseNatToString(n: nat)
    ensures ParseDigits(NatToString(n)) == n
  {
    if n >= 10 {
      var p := NatToString(n / 10);
      var s := p + [Digit(n % 10)];
      assert s[..|s| - 1] == p;
      ParseNatToString(n / 10);
    }
  }

  /** The longest prefix of `s` made of decimal digits. */
  function LeadingDigits(s: string): (r: string)
    ensures |r| <= |s| && r == s[..|r|]
    ensures forall i :: 0 <= i < |r| ==> IsDigit(r[i])
  {
    if s != [] && IsDigit(s[0]) then [s[0]] + LeadingDigits(s[1..]) else []
  }

  lemma {:induction false} LeadingDigitsOfNumber(d: string, rest: string)
    requires forall i :: 0 <= i < |d| ==> IsDigit(d[i])
    requires rest != [] && !IsDigit(rest[0])
    ensures LeadingDigits(d + rest) == d
    decreases |d|
  {
    if d != [] {
      assert (d + rest)[1..] == d[1..] + rest;
      LeadingDigitsOfNumber(d[1..], rest);
      assert d == [d[0]] + d[1..];
    } else {
      assert d + rest == rest;
    }
  }
}

=== FILE: wrappers.dfy ===
/** Failure-compatible Option and Result datatypes used throughout the model. */
module Wrappers {

  /** A value that may be absent: Python's `None`, a missing key, or a step that raised. */
  datatype Option<+T> = None | Some(value: T) {

    predicate IsFailure() {
      None?
    }

    function PropagateFailure<U>(): Option<U>
      requires None?
    {
      None
    }

    function Extract(): T
      requires Some?
    {
      value
    }

    /** The wrapped value, or `default` when there is none. */
    function GetOr(default: T): T {
      match this
      case Some(v) => v
      case None => default
    }
  }

  /** An outcome that either succeeds with a value or fails with an error value. */
  datatype Result<+R, +E> = Success(value: R) | Failure(error: E) {

    predicate IsFailure() {
      Failure?
    }

    function PropagateFailure<U>(): Result<U, E>
      requires Failure?
    {
      Failure(error)
    }

    function Extract(): R
      requires Success?
    {
      value
    }
  }
}
